=== FILE: README.md ===
# Holyrics text relay, modelled in Dafny

The system relays the text shown by the Holyrics presentation software to
browser subscribers. A poller fetches `/view/text.json` from the presentation
server every 200 ms. When the text differs from the last one, the poller
normalises it into display lines and pushes it to every connected
subscriber. A subscriber that connects later is sent the last text at once.
There are two implementations, and both are modelled here:

- **Go** (`holyrics.go`, `server.go`, `environments.go`).
  - The normaliser `cleanTextToArray` strips the hidden force-update span,
    HTML tags, `&nbsp;` and `(SYN - …)` artifacts. Scripture (`BIBLE`) is
    split into sentences on `". "`; anything else is split into lines on
    `"\n"`, with blank lines dropped.
  - The server state is `lastText`, `lastHeader`, `lastType`, the client set
    and the state mutex. It changes under four events: a poll tick, a
    connection, the replay to a new connection, and the end of a
    connection's read loop. The configuration defaults are part of the model.
- **TypeScript** (`src/server.ts`).
  - `processBibleText` and `removeHiddenSpan`.
  - The diff in `updateText`.
  - The upstream `connectionStatus` machine with its reconnect timer.
  - What a connecting subscriber is sent.

Modules:

- `Text`: whitespace as Go and as JavaScript define it, trimming, substrings
  and ASCII upper-casing.
- `Rewrite`: `strings.Split`, `strings.ReplaceAll`, and the global
  replace/split scan of a regular expression.
- `Patterns`: matcher building blocks.
- `GoNormalizer`, `GoServer`, `TsNormalizer` and `TsServer`: the two
  implementations.
- `GoExamples`: worked inputs.
- `Json`: decoded replies.
- `Options`: the optional value used throughout.

Each regular expression is a hand-written matcher that returns the unique
match at a start position. The global replacement scan then removes a match
or keeps one character at each position, as Go's `ReplaceAllString` and
JavaScript's `replace(/…/g)` do for these non-empty patterns.

Concurrency is reduced to atomic events. A mutex is a boolean. An event
that would block, or that the connection's phase does not allow, is
disabled. I/O outcomes are event parameters: fetch results, write
success, the set of clients whose broadcast write fails, and the clock
reading.

Some of the code's behaviour is easy to misread, and some differs from what
its own comments say (holyrics.go:98 speaks of replacing `&nbsp;` "and other
special characters"). The model follows the code:

- The Go change test compares the raw fetched `text` with `lastText`
  (holyrics.go:58), not the normalised lines.
- Only `&nbsp;` is decoded. `&amp;` and other entities pass through
  (`GoExamples.AmpersandEntityKept`).
- The final sentence of a scripture text keeps its period
  (`GoExamples.ScriptureKeepsFinalPeriod`).
- The `ReplaceAll` at holyrics.go:99 replaces an ASCII space with an ASCII
  space, so it changes nothing (`Rewrite.ReplaceAllSelf`). A non-breaking
  space is therefore kept inside generic lines. Only the scripture path
  (holyrics.go:140) turns it into a space.
- The Go replay sends the raw `lastText` split at `"\n"`, markup and blank
  lines included. It does not send the normalised lines that the broadcast
  carried.
- The TypeScript `\s*\(.*?\)\s*$` removes everything from the first `(`
  whose text runs to a final `)`, not just the last parenthetical
  (`TsNormalizer.ParenTailFromFirstParen`).

## Model

| member | source | states |
|---|---|---|
| GoNormalizer.MatchForceUpdateSpan | holyrics.go:91 | a hidden-span match starts with `<span` and has a length within the text |
| GoNormalizer.MatchTag | holyrics.go:95 | `<[^>]+>` matches exactly when the text starts with `<`, a non-`>` follows and a `>` comes later; the match ends at the first such `>` |
| GoNormalizer.MatchSynArtifact | holyrics.go:103 | a prefix of the text is matched exactly when it is a whole `(SYN - `, one or more of `[A-Z0-9]`, `)` artifact, and the match ends at that `)` |
| GoNormalizer.StripForceUpdateSpans | holyrics.go:91-92 | removing the hidden span never lengthens the text, and text without `<` is unchanged |
| GoNormalizer.StripTags | holyrics.go:95-96 | removing tags never lengthens the text, and text without `<` is unchanged; what is removed is stated by StripTagsTagFree and StripTagsRemoved |
| GoNormalizer.StripSynArtifacts | holyrics.go:103-104 | removing artifacts never lengthens the text, and text without `(SYN - ` is unchanged; what is removed is stated by SynArtifactRemoved |
| GoNormalizer.StripTagsTagFree | holyrics.go:95-96 | after tag stripping, no substring matching `<[^>]+>` is left |
| GoNormalizer.CleanMarkup | holyrics.go:89-107 | the cleaned text starts and ends with non-whitespace; what it holds is stated by the lemmas below, for tagged text by `CleanMarkupDropsTag` and `TaggedLineCleaned` |
| GoNormalizer.StripTagsRemoved | holyrics.go:95-96 | a tag `<inner>` (non-empty, no `>`) after text without `<` is removed, the text before it is kept, and stripping carries on after it |
| GoNormalizer.CleanMarkupDropsTag | holyrics.go:89-107 | a tag that is not a `<span…`, after text without `<`, makes no difference: cleaning the text with the tag gives the same as cleaning it without |
| GoNormalizer.TaggedLineCleaned | holyrics.go:89-107 | a line without `<` or `(` between an opening and a closing tag cleans to the line with `&nbsp;` decoded and the ends trimmed |
| GoNormalizer.NoMarkupMatches | holyrics.go:91-96 | without `<`, neither the span pattern nor the tag pattern matches anywhere |
| GoNormalizer.NoArtifactMatches | holyrics.go:103-104 | without `(SYN - `, the artifact pattern matches nowhere |
| GoNormalizer.PlainTextOnlyTrimmed | holyrics.go:91-107 | text with no `<`, no `&nbsp;` and no `(SYN - ` reaches segmentation changed only by trimming |
| GoNormalizer.CleanMarkupDecodesNbsp | holyrics.go:98-107 | without `<` or `(`, cleaning only turns each `&nbsp;` into a space and trims, and no `&nbsp;` is left |
| GoNormalizer.SynArtifactRemoved | holyrics.go:102-104 | an artifact `(SYN - code)` after text without `(` is removed, the text before it is kept, and removal carries on after it |
| GoNormalizer.FilterEmptyLines | holyrics.go:128-136 | keeps unmodified exactly the lines with non-whitespace content, never more lines than given |
| GoNormalizer.FilterEmptyLinesConcat | holyrics.go:128-136 | filtering distributes over concatenation, so kept lines stay in input order |
| GoNormalizer.FilterEmptyLinesEmpty | holyrics.go:128-136 | nothing is left exactly when every line is whitespace only |
| GoNormalizer.TrimSuffix | holyrics.go:142 | at most one copy of the suffix is removed, and only when the text ends with it |
| GoNormalizer.ProcessBibleText | holyrics.go:138-152 | sentences are non-empty, trimmed, free of `". "` and of NBSP; a whitespace-only text gives none |
| GoNormalizer.ScriptureKeepsLastPeriod | holyrics.go:138-151 | when the text that reaches the `". "` split ends with `.`, there is a last sentence and it ends with `.` |
| GoNormalizer.TrimEach | holyrics.go:119-122 | one line per input line, in order, each a trimmed substring of it; a line already trimmed is unchanged |
| GoNormalizer.BlankStaysBlank | holyrics.go:140-141 | turning NBSP into a space keeps a whitespace-only text whitespace-only |
| GoNormalizer.FilterThenTrimEach | holyrics.go:116-122 | dropping blank lines and then trimming each equals trimming every piece and keeping the non-empty ones |
| GoNormalizer.BibleLines | holyrics.go:111-112 | the final per-line trim changes nothing: the lines are exactly the `processBibleText` sentences, non-empty, trimmed and free of `". "`; an empty cleaned text gives none |
| GoNormalizer.GenericLines | holyrics.go:113-122 | the lines are exactly, in order, the trimmed non-blank `"\n"`-pieces; none holds `"\n"`; there are none exactly when the cleaned text is empty |
| GoNormalizer.GenericDispatch | holyrics.go:111-117 | any type other than exactly `BIBLE` (so `MUSIC`, `TEXT`, or the empty type) takes the line-splitting branch |
| GoNormalizer.CleanTextToArray | holyrics.go:89-125 | `BIBLE` lines are exactly the `processBibleText` sentences of the cleaned text, other lines exactly its trimmed non-blank `"\n"`-pieces; every line is non-empty and trimmed; `BIBLE` lines hold no `". "`, other lines no line break; an empty cleaned text gives no lines, never an error |
| GoExamples.ScriptureBeforeSplit | holyrics.go:139-142 | `x. y.)` reaches the split as `x. y.` |
| GoExamples.ScriptureSplit | holyrics.go:143 | `x. y.` splits on `". "` into `x` and `y.` |
| GoExamples.ScriptureFromSplit | holyrics.go:138-151 | when the text reaching the split and its `". "`-pieces are known and every piece is non-empty and trimmed, the sentences are exactly those pieces |
| GoExamples.ScriptureKeepsFinalPeriod | holyrics.go:138-151 | `x. y.)` gives `["x", "y."]`: the last sentence keeps its period |
| GoExamples.ScriptureDropsOneParen | holyrics.go:142 | `x))` gives `["x)"]`: only one `)` is dropped |
| GoExamples.AmpersandTextCleaned | holyrics.go:91-107 | `A &amp; B` comes through markup cleaning unchanged |
| GoExamples.SingleLineKept | holyrics.go:113-122 | a trimmed non-empty text without line breaks is one generic line |
| GoExamples.AmpersandEntityKept | holyrics.go:98-100 | `&amp;` is not decoded: `A &amp; B` is one line, as given |
| Rewrite.Split | holyrics.go:115 | pieces rejoined with the separator give the text; no piece contains the separator; each piece is a substring; there is always at least one |
| Rewrite.SplitAbsent | holyrics.go:143 | a text without the separator is one piece |
| Rewrite.SplitFirst | holyrics.go:143 | the first piece runs to the first separator; the rest is the split of what follows it |
| Rewrite.SplitLastEndsLike | holyrics.go:143 | a text whose last character differs from the separator's last one splits into a non-empty last piece ending with that character |
| Rewrite.SplitCharCount | server.go:45 | splitting on a character gives one more piece than it has occurrences |
| Rewrite.ReplaceAllAbsent | holyrics.go:100 | a text without the pattern is unchanged |
| Rewrite.ReplaceAll | holyrics.go:140 | every output character comes from the input or the replacement, and a replacement as long as the pattern keeps the length; what it does to each occurrence is stated by ReplaceAllAtFront and ReplaceAllSkipsPrefix |
| Rewrite.ReplaceAllAtFront | holyrics.go:100 | an occurrence of the pattern at the front becomes the replacement, and the replacement carries on with the text after it |
| Rewrite.ReplaceAllSkipsPrefix | holyrics.go:100 | a prefix in which the pattern starts nowhere is copied unchanged, and the replacement carries on after it |
| Rewrite.ReplaceAllSelf | holyrics.go:99 | replacing a pattern by itself changes nothing |
| Rewrite.ReplaceAllRemovesEvery | holyrics.go:140 | with a non-empty replacement disjoint from the pattern, no occurrence survives |
| Rewrite.ReplaceMatches | holyrics.go:92 | the global regex replacement only uses input and replacement characters, and never lengthens the text when deleting |
| Rewrite.ReplaceMatchesNone | holyrics.go:92 | with no match anywhere the text is unchanged |
| Rewrite.ReplaceMatchesSkipsPrefix | holyrics.go:104 | a prefix in which no match starts comes through the global replacement unchanged |
| Rewrite.SplitMatches | src/server.ts:121 | the pieces, with the matched separators put back between them, rebuild the text; there is one more piece than separators, and each piece is a substring |
| Rewrite.TrimmedNonBlank | src/server.ts:121-122 | kept pieces are non-empty, trimmed, no more than the input, each a substring of some input piece |
| Rewrite.TrimmedNonBlankKeeps | holyrics.go:145-150 | pieces already trimmed and non-empty pass through unchanged |
| Rewrite.TrimmedNonBlankEmpty | holyrics.go:145-150 | nothing is kept exactly when every piece is whitespace only |
| Rewrite.TrimmedNonBlankLast | holyrics.go:145-150 | when the last piece is not blank, the last kept piece is that piece trimmed |
| Text.SpaceDialectsDiffer | holyrics.go:107 | Go's `unicode.IsSpace` set and ECMAScript's `\s` set agree on ASCII (space, tab through carriage return) and on the no-break space, and differ only in NEL (Go only) and the byte-order mark (ECMAScript only) |
| Text.Trim | holyrics.go:107 | the result is the text without a whitespace-only prefix and suffix, starts and ends with non-whitespace, and is empty exactly for a whitespace-only text |
| Text.TrimIdempotent | holyrics.go:121 | trimming twice is trimming once |
| Text.TrimKeepsLastChar | holyrics.go:141 | a text that ends in non-whitespace still ends with that character once trimmed |
| Text.ToUpper | holyrics.go:61 | same length, each ASCII letter upper-cased, no lower-case ASCII letter left |
| GoServer.ExtractSnapshot | holyrics.go:28-55 | transport, read or JSON failure or a non-object `map` gives nothing; otherwise each field is its string or `""` |
| Json.GoString | holyrics.go:53-55 | the member's string, or `""` when it is missing or not a string |
| Json.Truthy | src/server.ts:277-282 | only a present, non-null value is truthy; arrays and objects always are; a string exactly when non-empty, a boolean exactly when `true`, a number exactly when non-zero |
| GoServer.ReplyRoundTrip | holyrics.go:47-55 | reading a well-formed reply returns exactly the fields sent |
| GoServer.NonStringFieldsReadEmpty | holyrics.go:53-55 | non-string `text`, `header` and `type` read as `""` rather than failing |
| GoServer.OnConnect | server.go:37-41 | a new connection is registered in `clients` and awaits its replay; registration itself sends nothing; the state after it is the old one with only `clients` and the connection's phase changed, so the stored text, header and type and the mutex are kept |
| GoServer.ReplayPayload | server.go:45-50 | the replay carries the stored type and header and has one line more than the text has `"\n"`; the lines rejoin to the stored text |
| GoServer.OnReplay | server.go:43-62 | replay is sent only for a non-empty `lastText`; a failed write removes the connection from `clients`; the mutex is left held or released as the mode says |
| GoServer.OnReadEnds | server.go:64-80 | when the read loop ends, the connection leaves `clients` and is closed; nothing is sent and nothing else in the state changes |
| GoServer.PollBetweenConnectAndReplay | server.go:37-50 | a poll with a new text between a subscriber's registration and its replay reaches that subscriber, and the replay then sends it the same text again, split only at line breaks |
| GoServer.PollPayload | holyrics.go:61-68 | the type is the upper-cased type; the lines are the normaliser's lines for that type: `processBibleText` sentences of the cleaned text for `BIBLE`, its trimmed non-blank lines otherwise; every line is non-empty and trimmed |
| GoServer.OnPoll | holyrics.go:47-84 | a fetch without a snapshot changes nothing; an unchanged text changes nothing, even with a new header or type; a new text is stored and broadcast, and the clients afterwards are the old ones minus exactly those whose write failed |
| GoServer.Step | server.go:30-81 | every event keeps each client a live connection and broadcasts only to registered clients |
| GoServer.RunKeepsValid | server.go:30-81 | along any run, every client is a connection whose handler has not returned |
| GoServer.ReleasedLockStaysFree | server.go:43-62 | with the mutex released on the failure path, it is never held between events |
| GoServer.NewTextAlwaysBroadcast | holyrics.go:57-80 | with the mutex released, a new text is always broadcast to every client whose write succeeds |
| GoServer.ReplayFailureKeepsLock | server.go:51-58 | as written, a failed replay write leaves the state mutex held |
| GoServer.LeakedLockSilencesServer | server.go:43-62 | once the mutex is leaked it stays held and no later event replays or broadcasts anything |
| GoServer.LowercaseBibleIsScripture | holyrics.go:61-63 | type `bible` is upper-cased to `BIBLE` and segmented as scripture |
| GoServer.GetEnv | environments.go:17-23 | the variable's value when it is set and non-empty, the fallback otherwise; never empty when the fallback is not |
| GoServer.LoadConfig | server.go:26-28 | the port, lyrics host and lyrics port are never empty; the per-setting fallback is stated by `DefaultConfig`, `ConfigOverride` and `ConfigIgnoresOtherVariables` |
| GoServer.DefaultConfig | server.go:26-28 | each setting is its default (`3000`, `localhost`, `4747`) when its own variable is unset or empty, whatever else is set |
| GoServer.ConfigIgnoresOtherVariables | server.go:26-28 | setting any variable other than the three leaves the configuration as it was |
| GoServer.ConfigOverride | server.go:26-28 | a non-empty `PORT`, `LYRICS_URL` or `LYRICS_PORT` wins over its default |
| TsNormalizer.MatchAnyTag | src/server.ts:117 | `<[^>]*>` matches exactly when the text starts with `<` and has a later `>`, and the match ends at the first such `>` |
| TsNormalizer.MatchNbspEntity | src/server.ts:118 | `&nbsp;` matches exactly where the text starts with those six characters, and takes all six |
| TsNormalizer.MatchSpaceRun | src/server.ts:119 | `\s+` matches exactly at whitespace and takes the whole run: every matched character is whitespace and the next one is not |
| TsNormalizer.MatchVerseNumber | src/server.ts:121 | `\d+\.\s*` matches exactly when the leading digit run is followed by `.`, and the match is the digits, the period and the whole whitespace run after it |
| TsNormalizer.StripAnyTags | src/server.ts:117 | stripping never lengthens the text, and text without `<` is unchanged; what is removed is stated by StripAnyTagsNoTagLeft and AnyTagRemoved |
| TsNormalizer.DecodeNbsp | src/server.ts:118 | decoding brings in no character except a space, and text without `&` is unchanged; NbspDecodedBetween states that an entity becomes one space |
| TsNormalizer.CollapseSpaces | src/server.ts:119 | collapsing brings in no character except a space, and text without whitespace is unchanged; CollapseNoDoubleSpace and CollapseKeepsSingleSpaces state the rest |
| TsNormalizer.StripAnyTagsNoTagLeft | src/server.ts:117 | after stripping, no `<` is followed by a `>` |
| TsNormalizer.ReplaceMatchesKeepsNoTagLeft | src/server.ts:118-119 | replacements without `<` or `>` keep a text free of tags |
| TsNormalizer.CollapseNoDoubleSpace | src/server.ts:119 | after collapsing, no two whitespace characters are adjacent |
| TsNormalizer.CollapseKeepsSingleSpaces | src/server.ts:119 | a text whose whitespace is only lone ASCII spaces is left unchanged by the collapse |
| TsNormalizer.FlattenScripture | src/server.ts:117-119 | the flattened text has no tag, no doubled whitespace and is trimmed; what it holds is stated by `FlattenDropsTag`, `NbspBetweenWords` and `TaggedWordsFlattened` |
| TsNormalizer.AnyTagRemoved | src/server.ts:117 | a tag `<inner>` (no `>` inside) after text without `<` is removed, the text before it is kept, and stripping carries on after it |
| TsNormalizer.FlattenDropsTag | src/server.ts:117-119 | a tag after text without `<` makes no difference: flattening the text with the tag gives the same as flattening it without |
| TsNormalizer.NbspBetweenWords | src/server.ts:118-119 | between two flat lines, `&nbsp;` followed by a space becomes a single space |
| TsNormalizer.TaggedWordsFlattened | src/server.ts:117-119 | `<t>a<u>&nbsp; b`, with `a` and `b` flat lines, flattens to `a b`: the tags go, the entity is decoded and the two spaces collapse |
| TsNormalizer.FlatTextUnchanged | src/server.ts:117-119 | a text that is already flat (no tag, no `&nbsp;`, only lone ASCII spaces, trimmed) comes through unchanged |
| TsNormalizer.FirstParenTail | src/server.ts:120 | the leftmost position at or after the start where `\s*\(.*?\)\s*$` matches, or none when it matches nowhere there |
| TsNormalizer.DropParenTail | src/server.ts:120 | the result is a prefix cut at the leftmost match of `\s*\(.*?\)\s*$`; text without `(` is unchanged |
| TsNormalizer.ParenTailFromFirstParen | src/server.ts:120 | `a (b) c (d)` becomes `a` |
| TsNormalizer.SplitVerses | src/server.ts:121 | there is at least one piece, and the pieces with the removed verse numbers put back between them rebuild the text |
| TsNormalizer.NoVerseNumberIn | src/server.ts:121 | a text with no digit directly followed by a period holds no verse number |
| TsNormalizer.SplitVersesNoDigitDot | src/server.ts:121 | no piece of the verse split holds a digit followed by a period |
| TsNormalizer.ProcessBibleText | src/server.ts:116-123 | verses are non-empty and trimmed, with no tag, no doubled whitespace and no digit followed by a period; which verses, on numbered text with a reference, is stated by `TwoVersesWithReference` |
| TsNormalizer.ReferenceDropped | src/server.ts:120 | a parenthesised reference (no line break inside) after text with no `(` that ends in a non-space is dropped together with the space before it |
| TsNormalizer.VerseNumberSplit | src/server.ts:121 | a verse number (digits, period, space) after text with no digit-period pair and no final digit, and before a non-space, is where the split makes its first cut: the pieces are the text before it, then the split of what follows |
| TsNormalizer.TwoVersesWithReference | src/server.ts:116-123 | a text that flattens to `n1. v1 n2. v2 (ref)`, where the verses are non-empty, trimmed and free of `(` and digit-period pairs, gives exactly `[v1, v2]` |
| TsNormalizer.SingleVerse | src/server.ts:116-123 | a text that flattens to one non-empty line with no `(` and no digit followed by a period is exactly that one verse |
| TsNormalizer.MatchHiddenSpan | src/server.ts:200 | a hidden-span match starts with a case-insensitive `<span` |
| TsNormalizer.RemoveHiddenSpan | src/server.ts:199-201 | the text never grows, and text without a case-insensitive `<span` is returned unchanged |
| TsServer.Boot | src/server.ts:10-32 | start-up has the last text from the cache, no type and no header, a connected status with no error, no error time and no error count, not reconnecting, and no timer |
| TsServer.LabelOf | src/server.ts:172-175 | the label is `connected` exactly when connected, and `connecting` exactly when disconnected and reconnecting |
| TsServer.Fail | src/server.ts:306-329 | a failure while connected disconnects with the message, the time, one error, a `disconnected` notice and the timer running; while disconnected it only counts one more error |
| TsServer.ErrorMessage | src/server.ts:310-312 | an `Error`'s own message, otherwise the fixed unknown-error text |
| TsServer.TextMap | src/server.ts:276-277 | exactly when `data.map` is an object whose `text` is a string, the result is that object's members |
| TsServer.HeaderOf | src/server.ts:282 | the `header` member when it is truthy, otherwise none |
| TsServer.TypeOf | src/server.ts:281 | the type is the upper-cased string, `TEXT` when falsy, and none (a throw) when truthy but not a string |
| TsServer.ContentFor | src/server.ts:285-288 | only `BIBLE` is sent as verses, and they are `processBibleText` of the text; anything else is the raw text |
| TsServer.Reconnected | src/server.ts:296-305 | a poll that did not throw reconnects a disconnected status with zero errors and no message, and announces it |
| TsServer.UpdateText | src/server.ts:266-331 | nothing happens while reconnecting; a rejection is a failure; an unchanged cleaned text is neither stored nor emitted; a new text with a usable type is stored with that type and header and sent first, followed by a reconnection notice when disconnected, and the state changes in nothing else but `connected`, the error count and the last error (reconnect timer and error time kept); a new text with a truthy non-string type is stored and the poll fails |
| TsServer.AttemptConnection | src/server.ts:204-258 | if connected the timer stops; otherwise the first attempt announces `connecting`; a 200 gives exactly the status with the reconnection over, the error cleared and the error time kept, stops the timer, and emits the optional `connecting` followed by one `connected`; every rejected attempt announces `connecting` again; a non-200 reply announces nothing more; a failed attempt leaves the error count alone |
| TsServer.OnConnection | src/server.ts:168-195 | a subscriber gets the status, then the last text only when it is present, non-empty and not an error message, with the stored type (`TEXT` when none) and that type's content for the stored text |
| TsServer.Step | src/server.ts:204-331 | every event keeps the status fields consistent |
| TsServer.RunKeepsConsistent | src/server.ts:204-331 | every reachable state has its status fields consistent |
| TsServer.BootIsConsistent | src/server.ts:18-32 | start-up is consistent |
| TsServer.ErrorCountFrozenWhileReconnecting | src/server.ts:204-269 | while a reconnection is under way the error count does not change |
| TsServer.ReplayRepeatsLastText | src/server.ts:184-290 | a poll that reads a new, non-empty, non-error text with a readable type emits a text message, and a subscriber connecting right after it receives that same message |
| TsServer.NonStringTypeIsFailure | src/server.ts:279-329 | a truthy non-string type stores the text, emits nothing and is counted as a lost connection |
| TsServer.SamePollTwiceSendsOnce | src/server.ts:276-293 | the same reply polled twice sends its text at most once: the second poll changes nothing and sends nothing |

## Findings

| source | as written | input that shows it | evidently intended | confidence | as-written member | corrected member |
|---|---|---|---|---|---|---|
| server.go:43-62 | when the replay write fails, the handler returns at line 58 while still holding the state mutex it took at line 43 | a subscriber connects while `lastText` is non-empty, and its first write fails | release the mutex before returning, as line 62 does on the other paths | high; not executed | GoServer.LeakedLockSilencesServer | GoServer.ReleasedLockStaysFree |

Under the as-written handling (`KeepsLock`), `GoServer.ReplayFailureKeepsLock`
shows the lock being leaked. From then on, every poll that reads a snapshot
blocks, and so does every replay. The corrected handling (`ReleasesLock`)
never holds the mutex between events, and `GoServer.NewTextAlwaysBroadcast`
shows that a new text always reaches the clients.

## Left out

- HTTP requests, body reading, JSON parsing and URL formatting are left
  out. Their results enter as `Fetch`/`Response` values carrying a decoded
  `Json`.
- WebSocket and socket.io I/O are left out. Write success is a parameter,
  and an emission is returned, not sent.
- The `/` file server and the upgrade failure path are left out.
- Real concurrency is not modelled. This covers the ticker, `setInterval`,
  `setTimeout`, the 50 ms replay delay and overlapping `updateText` calls.
  Each event is atomic, and the TypeScript replay content is taken when the
  subscriber connects.
- SQLite is not modelled: the cache, the history and saved errors. The
  cached text is only the `Boot` parameter, and every database write is
  assumed to succeed.
- The retry-delay formula (floating-point `Math.pow`) is left out. Only the
  frozen error count it depends on is stated.
- The notification message strings and the loggers are left out.
- prevent_sleep_windows.go, src/environments.ts and src/index.ts are left out.
- Text.ToUpper: upper-cases ASCII letters only. Go's `strings.ToUpper` and
  JavaScript's `toUpperCase` also map other scripts, which only matters for
  a non-ASCII type name.
- Strings are sequences of code points. Invalid UTF-8 and UTF-16
  surrogates are not modelled.
- TsServer.TypeOf: the TypeError message is a fixed placeholder. Its real
  wording comes from the JavaScript engine.
- GoNormalizer.MatchForceUpdateSpan: the contract only states that a match
  starts with `<span` and stays within the text. The full pattern is in the
  body, not in the contract.
- GoNormalizer.CleanMarkupDropsTag: a tag that begins `<span` or holds
  another `<` can join later text into the hidden-span pattern, which is
  removed first, so the lemma does not cover such tags.
- TsNormalizer.MatchHiddenSpan: the contract only states that a match starts
  with a case-insensitive `<span`. The rest of the pattern is in the body.
- TsNormalizer.RemoveHiddenSpan: no lemma shows a concrete marker being
  removed. The contract covers the identity case and length.

=== FILE: go_examples.dfy ===
/**
 * Worked inputs for the Go normaliser, chosen where its behaviour is easy to
 * get wrong when reading the code: the last sentence keeps its period, only
 * one closing parenthesis is dropped, and entities other than `&nbsp;` are
 * passed through undecoded.
 */
module GoExamples {

  import opened Text
  import opened Rewrite
  import opened GoNormalizer

  /** A trimmed text without NBSP reaches the scripture split with at most one ")" removed. */
  lemma PlainBeforeSplit(s: string)
    requires NBSP !in s && IsTrimmed(Go, s)
    ensures TrimSuffix(Trim(Go, ReplaceAll(s, [NBSP], " ")), ")") == TrimSuffix(s, ")")
  {
    ContainsSingle(s, NBSP);
    ReplaceAllAbsent(s, [NBSP], " ");
    TrimOfTrimmed(Go, s);
  }

  /** "x. y.)" reaches the sentence split as "x. y.": trimmed, one ")" removed. */
  lemma ScriptureBeforeSplit()
    ensures TrimSuffix(Trim(Go, ReplaceAll("x. y.)", [NBSP], " ")), ")") == "x. y."
  {
    PlainBeforeSplit("x. y.)");
    TrimSuffixOfParen("x. y.");
    assert "x. y." + ")" == "x. y.)";
  }

  /** Splitting on ". " keeps the final period with the last sentence. */
  lemma ScriptureSplit()
    ensures Split("x. y.", ". ") == ["x", "y."]
  {
    var t := "x. y.";
    assert t[1..3] == ". ";
    assert t[0..2][0] == 'x';
    SplitFirst(t, ". ", 1);
    assert t[3..] == "y.";
    assert t[..1] == "x";
    MissingCharNotContained("y.", ". ", 1);
    SplitAbsent("y.", ". ");
  }

  /** Once the text before the split and the split itself are known, the sentences are those pieces. */
  lemma ScriptureFromSplit(text: string, before: string, sentences: seq<string>)
    requires TrimSuffix(Trim(Go, ReplaceAll(text, [NBSP], " ")), ")") == before
    requires Split(before, ". ") == sentences
    requires forall i | 0 <= i < |sentences| :: sentences[i] != "" && IsTrimmed(Go, sentences[i])
    ensures ProcessBibleText(text) == sentences
  {
    ProcessBibleTextPipeline(text);
    TrimmedNonBlankKeeps(Go, sentences);
  }

  /** A scripture text gives its sentences, the last one still ending in ".". */
  lemma ScriptureKeepsFinalPeriod()
    ensures ProcessBibleText("x. y.)") == ["x", "y."]
  {
    var sentences := ["x", "y."];
    assert IsTrimmed(Go, sentences[0]) && IsTrimmed(Go, sentences[1]);
    ScriptureBeforeSplit();
    ScriptureSplit();
    ScriptureFromSplit("x. y.)", "x. y.", sentences);
  }

  /** "x))" reaches the split as "x)". */
  lemma OneParenBeforeSplit()
    ensures TrimSuffix(Trim(Go, ReplaceAll("x))", [NBSP], " ")), ")") == "x)"
  {
    PlainBeforeSplit("x))");
    TrimSuffixOfParen("x)");
    assert "x)" + ")" == "x))";
  }

  /** One ")" is taken off a text that ends with it. */
  lemma TrimSuffixOfParen(body: string)
    ensures TrimSuffix(body + ")", ")") == body
  {
    var s := body + ")";
    assert s[|s| - 1..] == ")";
    assert s[..|s| - 1] == body;
  }

  /** Only one trailing ")" is removed. */
  lemma ScriptureDropsOneParen()
    ensures ProcessBibleText("x))") == ["x)"]
  {
    OneParenBeforeSplit();
    MissingCharNotContained("x)", ". ", 0);
    SplitAbsent("x)", ". ");
    ScriptureFromSplit("x))", "x)", ["x)"]);
  }

  /** "A &amp; B" has no markup the normaliser touches. */
  lemma AmpersandTextIsPlain()
    ensures '<' !in "A &amp; B" && '\n' !in "A &amp; B"
    ensures !Contains("A &amp; B", "&nbsp;")
    ensures !Contains("A &amp; B", "(SYN - ")
    ensures IsTrimmed(Go, "A &amp; B")
  {
    MissingCharNotContained("A &amp; B", "&nbsp;", 3);
    MissingCharNotContained("A &amp; B", "(SYN - ", 0);
  }

  /** Markup cleaning leaves it as it is. */
  lemma AmpersandTextCleaned()
    ensures CleanMarkup("A &amp; B") == "A &amp; B"
  {
    AmpersandTextIsPlain();
    PlainTextOnlyTrimmed("A &amp; B");
    TrimOfTrimmed(Go, "A &amp; B");
  }

  /** A single non-blank line is one display line. */
  lemma SingleLineKept(s: string)
    requires s != "" && IsTrimmed(Go, s) && '\n' !in s
    ensures GenericLines(s) == [s]
  {
    MissingCharNotContained(s, "\n", 0);
    SplitAbsent(s, "\n");
    assert FilterEmptyLines([s]) == [s];
    TrimOfTrimmed(Go, s);
  }

  /** `&amp;` is not decoded: the line comes out exactly as it went in. */
  lemma AmpersandEntityKept()
    ensures CleanTextToArray("A &amp; B", "MUSIC") == ["A &amp; B"]
  {
    var s := "A &amp; B";
    AmpersandTextCleaned();
    AmpersandTextIsPlain();
    SingleLineKept(s);
    assert "MUSIC"[0] != "BIBLE"[0];
    GenericDispatch(s, "MUSIC");
  }
}

=== FILE: go_normalizer.dfy ===
/**
 * The Go normaliser of holyrics.go: `cleanTextToArray`, `filterEmptyLines`
 * and `processBibleText`. It turns the presentation server's HTML-laden text
 * into display lines: scripture is split into sentences on ". ", everything
 * else into lines on "\n".
 */
module GoNormalizer {

  import opened Options
  import opened Text
  import opened Rewrite
  import opened Patterns

  const NBSP: char := '\U{A0}'

  /**
   * The hidden force-update span, matched at the start of `t`:
   *   <span\s+style=['"]visibility:hidden;display:none['"]?\s+id=['"]text-force-update_\d+['"]?\s*>\s*</span>
   * Every repetition is greedy and is followed by a token its class cannot
   * start, and every optional quote is followed by `\s` or `>`, which a quote
   * is not, so the match at a given start is unique and this sequence of
   * steps finds it.
   */
  function MatchForceUpdateSpan(t: string): (r: Option<nat>)
    ensures r.Some? ==> OccursAt(t, "<span", 0) && 0 < r.value <= |t|
  {
    var p1 :- Lit(t, 0, "<span");
    var p2 :- Run1(t, p1, IsRe2Space);
    var p3 :- Lit(t, p2, "style=");
    var p4 :- One(t, p3, IsQuote);
    var p5 :- Lit(t, p4, "visibility:hidden;display:none");
    var p6 := Opt(t, p5, IsQuote);
    var p7 :- Run1(t, p6, IsRe2Space);
    var p8 :- Lit(t, p7, "id=");
    var p9 :- One(t, p8, IsQuote);
    var p10 :- Lit(t, p9, "text-force-update_");
    var p11 :- Run1(t, p10, IsDigit);
    var p12 := Opt(t, p11, IsQuote);
    var p13 := RunEnd(t, p12, IsRe2Space);
    var p14 :- Lit(t, p13, ">");
    var p15 := RunEnd(t, p14, IsRe2Space);
    Lit(t, p15, "</span>")
  }

  /** `<[^>]+>` at the start of `t`: from `<` through the first later `>`, with something between. */
  function MatchTag(t: string): (r: Option<nat>)
    ensures r.Some? <==> |t| >= 2 && t[0] == '<' && t[1] != '>' && '>' in t[2..]
    ensures r.Some? ==> 3 <= r.value <= |t| && t[r.value - 1] == '>'
    ensures r.Some? ==> forall k | 1 <= k < r.value - 1 :: t[k] != '>'
  {
    if |t| >= 2 && t[0] == '<' && t[1] != '>' then
      match IndexOf(t, ">", 1)
      case Some(k) =>
        assert t[k] == t[k..k + 1][0];
        assert forall j | 1 <= j < k :: t[j] != '>' by {
          forall j | 1 <= j < k
            ensures t[j] != '>'
          {
            assert !OccursAt(t, ">", j);
            assert t[j..j + 1] == [t[j]];
          }
        }
        Some(k + 1)
      case None =>
        assert '>' !in t[2..] by {
          forall j | 2 <= j < |t|
            ensures t[j] != '>'
          {
            assert !OccursAt(t, ">", j);
            assert t[j..j + 1] == [t[j]];
          }
        }
        None
    else None
  }

  /** The whole of `w` is one `\(SYN - [A-Z0-9]+\)` artifact. */
  predicate IsSynArtifact(w: string) {
    |w| >= 9 && w[..7] == "(SYN - " && w[|w| - 1] == ')'
    && forall k | 7 <= k < |w| - 1 :: IsUpperOrDigit(w[k])
  }

  /**
   * `\(SYN - [A-Z0-9]+\)` at the start of `t`. The code cannot hold `)`, so
   * at most one prefix of `t` is an artifact, and the match is that prefix.
   */
  function MatchSynArtifact(t: string): (r: Option<nat>)
    ensures r.Some? ==> 9 <= r.value <= |t| && IsSynArtifact(t[..r.value])
    ensures forall n | 0 < n <= |t| && IsSynArtifact(t[..n]) :: r == Some(n)
  {
    SynArtifactSteps(t);
    var p1 :- Lit(t, 0, "(SYN - ");
    var p2 :- Run1(t, p1, IsUpperOrDigit);
    var p3 :- Lit(t, p2, ")");
    assert t[p2] == t[p2..p2 + 1][0];
    Some(p3)
  }

  /** An artifact prefix passes each step of MatchSynArtifact, and the code run ends at its `)`. */
  lemma SynArtifactSteps(t: string)
    ensures forall n | 0 < n <= |t| && IsSynArtifact(t[..n]) ::
              OccursAt(t, "(SYN - ", 0) && IsUpperOrDigit(t[7])
              && RunEnd(t, 7, IsUpperOrDigit) == n - 1 && OccursAt(t, ")", n - 1)
  {
    forall n | 0 < n <= |t| && IsSynArtifact(t[..n])
      ensures OccursAt(t, "(SYN - ", 0) && IsUpperOrDigit(t[7])
              && RunEnd(t, 7, IsUpperOrDigit) == n - 1 && OccursAt(t, ")", n - 1)
    {
      var w := t[..n];
      assert t[..7] == w[..7];
      assert forall k | 7 <= k < n - 1 :: IsUpperOrDigit(t[k]) by {
        assert forall k | 7 <= k < n - 1 :: w[k] == t[k];
      }
      assert t[n - 1] == w[n - 1] == ')';
      assert t[n - 1..n] == ")";
    }
  }

  /** No part of `s` matches `<[^>]+>`: a `<` is directly followed by `>` or has no `>` after it. */
  predicate TagFree(s: string) {
    forall i | 0 <= i < |s| && s[i] == '<' :: (i + 1 < |s| && s[i + 1] == '>') || '>' !in s[i + 1..]
  }

  /**
   * holyrics.go:91-92: every hidden force-update span is removed; text
   * without `<` is kept as it is.
   */
  function StripForceUpdateSpans(s: string): (r: string)
    ensures |r| <= |s|
    ensures '<' !in s ==> r == s
  {
    MarkupFreeKept(s);
    ReplaceMatches(s, MatchForceUpdateSpan, "")
  }

  /**
   * holyrics.go:95-96: every `<[^>]+>` is removed (StripTagsTagFree,
   * StripTagsRemoved); text without `<` is kept as it is.
   */
  function StripTags(s: string): (r: string)
    ensures |r| <= |s|
    ensures '<' !in s ==> r == s
  {
    MarkupFreeKept(s);
    ReplaceMatches(s, MatchTag, "")
  }

  /**
   * holyrics.go:103-104: every `(SYN - …)` artifact is removed
   * (SynArtifactRemoved); text without `(SYN - ` is kept as it is.
   */
  function StripSynArtifacts(s: string): (r: string)
    ensures |r| <= |s|
    ensures !Contains(s, "(SYN - ") ==> r == s
  {
    ArtifactFreeKept(s);
    ReplaceMatches(s, MatchSynArtifact, "")
  }

  lemma MarkupFreeKept(s: string)
    ensures '<' !in s ==> ReplaceMatches(s, MatchForceUpdateSpan, "") == s && ReplaceMatches(s, MatchTag, "") == s
  {
    if '<' !in s {
      NoMarkupMatches(s);
      ReplaceMatchesNone(s, MatchForceUpdateSpan, "");
      ReplaceMatchesNone(s, MatchTag, "");
    }
  }

  lemma ArtifactFreeKept(s: string)
    ensures !Contains(s, "(SYN - ") ==> ReplaceMatches(s, MatchSynArtifact, "") == s
  {
    if !Contains(s, "(SYN - ") {
      NoArtifactMatches(s);
      ReplaceMatchesNone(s, MatchSynArtifact, "");
    }
  }

  /** Putting a character in front of a tag-free text keeps it tag-free when a `<` in front is harmless. */
  lemma TagFreeCons(c: char, tail: string)
    requires TagFree(tail)
    requires c == '<' ==> (|tail| > 0 && tail[0] == '>') || '>' !in tail
    ensures TagFree([c] + tail)
  {
    var r := [c] + tail;
    forall i | 0 <= i < |r| && r[i] == '<'
      ensures (i + 1 < |r| && r[i + 1] == '>') || '>' !in r[i + 1..]
    {
      if i > 0 {
        assert r[i] == tail[i - 1];
        assert r[i + 1..] == tail[i..];
      } else {
        assert r[1..] == tail;
      }
    }
  }

  /** After a `<` that starts no tag, the stripped rest begins with `>` or has no `>` at all. */
  lemma StripTagsAfterUnmatchedOpen(s: string)
    requires |s| > 0 && s[0] == '<' && !MatchesAt(MatchTag, s)
    ensures var tail := StripTags(s[1..]); (|tail| > 0 && tail[0] == '>') || '>' !in tail
  {
    var tail := StripTags(s[1..]);
    if |s| >= 2 && s[1] == '>' {
      assert s[1..][0] == '>';
      assert !MatchesAt(MatchTag, s[1..]);
      assert tail == [s[1]] + StripTags(s[2..]) by {
        assert s[1..][1..] == s[2..];
      }
    }
  }

  /** After tag stripping nothing that looks like a tag is left. */
  lemma {:induction false} StripTagsTagFree(s: string)
    ensures TagFree(StripTags(s))
    decreases |s|
  {
    if |s| > 0 {
      if MatchesAt(MatchTag, s) {
        StripTagsTagFree(s[MatchTag(s).value..]);
        assert StripTags(s) == StripTags(s[MatchTag(s).value..]);
      } else {
        StripTagsTagFree(s[1..]);
        KeptCharTagFree(s);
      }
    }
  }

  /** A first character that starts no tag is kept, and the text stays tag-free. */
  lemma KeptCharTagFree(s: string)
    requires |s| > 0 && !MatchesAt(MatchTag, s)
    requires TagFree(StripTags(s[1..]))
    ensures TagFree(StripTags(s))
  {
    var tail := StripTags(s[1..]);
    assert StripTags(s) == [s[0]] + tail;
    if s[0] == '<' {
      StripTagsAfterUnmatchedOpen(s);
    }
    TagFreeCons(s[0], tail);
  }

  /**
   * A tag `<inner>` is removed: text before it that holds no `<` is kept as
   * it is, and the stripping carries on after the tag.
   */
  lemma StripTagsRemoved(pre: string, inner: string, post: string)
    requires '<' !in pre
    requires inner != "" && '>' !in inner
    ensures StripTags(pre + "<" + inner + ">" + post) == pre + StripTags(post)
  {
    TagAfterPrefix(pre, "<" + inner + ">" + post);
    TagAtFront(inner, post);
    TagShape(pre, inner, post);
  }

  /** Text without `<` in front of the rest comes through tag stripping unchanged. */
  lemma TagAfterPrefix(pre: string, t: string)
    requires '<' !in pre
    ensures StripTags(pre + t) == pre + StripTags(t)
  {
    NoTagStartsIn(pre, t);
    ReplaceMatchesSkipsPrefix(pre, t, MatchTag, "");
  }

  /** No tag starts inside a text without `<`. */
  lemma NoTagStartsIn(pre: string, x: string)
    requires '<' !in pre
    ensures forall i | 0 <= i < |pre| :: !MatchesAt(MatchTag, (pre + x)[i..])
  {
    forall i | 0 <= i < |pre|
      ensures !MatchesAt(MatchTag, (pre + x)[i..])
    {
      assert (pre + x)[i..][0] == pre[i];
    }
  }

  /** A whole tag at the front is removed. */
  lemma TagAtFront(inner: string, post: string)
    requires inner != "" && '>' !in inner
    ensures StripTags("<" + inner + ">" + post) == StripTags(post)
  {
    var t := "<" + inner + ">" + post;
    var n := |inner| + 2;
    assert t[n - 1] == '>';
    assert forall k | 1 <= k < n - 1 :: t[k] == inner[k - 1];
    assert t[1] == inner[0] && '>' in t[2..];
    assert MatchTag(t).value == n;
    ReplaceMatchesAtFront(t, MatchTag, "");
    assert t[n..] == post;
  }

  /**
   * holyrics.go:89-107, everything before segmentation: drop the hidden span,
   * strip tags, apply the space-for-space replacement of line 99 (which
   * changes nothing), turn `&nbsp;` into a space, drop `(SYN - …)` artifacts,
   * trim. No other entity is decoded.
   */
  function CleanMarkup(text: string): (r: string)
    ensures IsTrimmed(Go, r)
  {
    var t1 := StripForceUpdateSpans(text);
    var t2 := StripTags(t1);
    var t3 := ReplaceAll(t2, " ", " ");
    var t4 := ReplaceAll(t3, "&nbsp;", " ");
    var t5 := StripSynArtifacts(t4);
    Trim(Go, t5)
  }

  /** Without `<` neither the span pattern nor the tag pattern matches anywhere. */
  lemma NoMarkupMatches(text: string)
    requires '<' !in text
    ensures forall i | 0 <= i < |text| :: !MatchesAt(MatchForceUpdateSpan, text[i..])
    ensures forall i | 0 <= i < |text| :: !MatchesAt(MatchTag, text[i..])
  {
    forall i | 0 <= i < |text|
      ensures !MatchesAt(MatchForceUpdateSpan, text[i..]) && !MatchesAt(MatchTag, text[i..])
    {
      assert text[i..][0] == text[i];
      NoSpanAtStart(text[i..]);
      NoTagAtStart(text[i..]);
    }
  }

  /** A text that does not start with `<` starts neither the hidden span nor a tag. */
  lemma NoSpanAtStart(t: string)
    requires |t| > 0 && t[0] != '<'
    ensures !MatchesAt(MatchForceUpdateSpan, t)
  {
  }

  lemma NoTagAtStart(t: string)
    requires |t| > 0 && t[0] != '<'
    ensures !MatchesAt(MatchTag, t)
  {
  }

  /** Without `(SYN - ` the artifact pattern matches nowhere. */
  lemma NoArtifactMatches(text: string)
    requires !Contains(text, "(SYN - ")
    ensures forall i | 0 <= i < |text| :: !MatchesAt(MatchSynArtifact, text[i..])
  {
    forall i | 0 <= i < |text|
      ensures !MatchesAt(MatchSynArtifact, text[i..])
    {
      if MatchSynArtifact(text[i..]).Some? {
        assert text[i..][..7] == text[i..i + 7];
        assert OccursAt(text, "(SYN - ", i);
      }
    }
  }

  /** Text with no `<`, no `&nbsp;` and no `(SYN - ` reaches segmentation changed only by trimming. */
  lemma PlainTextOnlyTrimmed(text: string)
    requires '<' !in text
    requires !Contains(text, "&nbsp;")
    requires !Contains(text, "(SYN - ")
    ensures CleanMarkup(text) == Trim(Go, text)
  {
    NoMarkupMatches(text);
    NoArtifactMatches(text);
    ReplaceMatchesNone(text, MatchForceUpdateSpan, "");
    ReplaceMatchesNone(text, MatchTag, "");
    ReplaceAllSelf(text, " ");
    ReplaceAllAbsent(text, "&nbsp;", " ");
    ReplaceMatchesNone(text, MatchSynArtifact, "");
  }

  /**
   * An artifact `(SYN - code)` is dropped: text before it that holds no `(`
   * is kept as it is, and the removal carries on after the artifact.
   */
  lemma {:induction false} SynArtifactRemoved(pre: string, code: string, post: string)
    requires '(' !in pre
    requires |code| > 0 && forall k | 0 <= k < |code| :: IsUpperOrDigit(code[k])
    ensures StripSynArtifacts(pre + "(SYN - " + code + ")" + post) == pre + StripSynArtifacts(post)
  {
    var a := "(SYN - " + code + ")";
    ArtifactOfCode(code);
    ArtifactAfterPrefix(pre, a, post);
    assert pre + "(SYN - " + code + ")" + post == pre + (a + post);
  }

  /** A whole artifact after a text without `(` is removed, and that text is kept. */
  lemma ArtifactAfterPrefix(pre: string, a: string, post: string)
    requires '(' !in pre && IsSynArtifact(a)
    ensures StripSynArtifacts(pre + (a + post)) == pre + StripSynArtifacts(post)
  {
    NoArtifactStartsIn(pre, a + post);
    ReplaceMatchesSkipsPrefix(pre, a + post, MatchSynArtifact, "");
    ArtifactAtFront(a, post);
  }

  /** `(SYN - ` and a non-empty code of capitals and digits, closed by `)`, is an artifact. */
  lemma ArtifactOfCode(code: string)
    requires |code| > 0 && forall k | 0 <= k < |code| :: IsUpperOrDigit(code[k])
    ensures IsSynArtifact("(SYN - " + code + ")")
  {
    var a := "(SYN - " + code + ")";
    assert a[..7] == "(SYN - ";
    assert forall k | 7 <= k < |a| - 1 :: a[k] == code[k - 7];
  }

  /** No artifact starts inside a text without `(`. */
  lemma NoArtifactStartsIn(pre: string, x: string)
    requires '(' !in pre
    ensures forall i | 0 <= i < |pre| :: !MatchesAt(MatchSynArtifact, (pre + x)[i..])
  {
    forall i | 0 <= i < |pre|
      ensures !MatchesAt(MatchSynArtifact, (pre + x)[i..])
    {
      assert (pre + x)[i..][0] == pre[i];
    }
  }

  /** A whole artifact at the front is removed. */
  lemma ArtifactAtFront(a: string, post: string)
    requires IsSynArtifact(a)
    ensures StripSynArtifacts(a + post) == StripSynArtifacts(post)
  {
    var x := a + post;
    assert x[..|a|] == a;
    ReplaceMatchesAtFront(x, MatchSynArtifact, "");
    assert x[|a|..] == post;
  }

  /**
   * A tag that is not the hidden span's `<span`, after text without `<`,
   * makes no difference to the cleaned text: cleaning drops it.
   */
  lemma CleanMarkupDropsTag(pre: string, inner: string, post: string)
    requires '<' !in pre
    requires inner != "" && '>' !in inner && '<' !in inner
    requires |inner| < 4 || inner[..4] != "span"
    ensures CleanMarkup(pre + "<" + inner + ">" + post) == CleanMarkup(pre + post)
  {
    var p1 := StripForceUpdateSpans(post);
    SpansAroundTag(pre, inner, post);
    StripTagsRemoved(pre, inner, p1);
    NoTagStartsIn(pre, p1);
    ReplaceMatchesSkipsPrefix(pre, p1, MatchTag, "");
    assert StripTags(StripForceUpdateSpans(pre + "<" + inner + ">" + post))
        == StripTags(StripForceUpdateSpans(pre + post));
  }

  /** The hidden-span pass keeps the text before the tag and the tag itself. */
  lemma SpansAroundTag(pre: string, inner: string, post: string)
    requires '<' !in pre && '<' !in inner && '>' !in inner
    requires |inner| < 4 || inner[..4] != "span"
    ensures StripForceUpdateSpans(pre + "<" + inner + ">" + post)
         == pre + "<" + inner + ">" + StripForceUpdateSpans(post)
    ensures StripForceUpdateSpans(pre + post) == pre + StripForceUpdateSpans(post)
  {
    var h := pre + "<" + inner + ">";
    NoSpanStartsBefore(pre, inner, post);
    ReplaceMatchesSkipsPrefix(h, post, MatchForceUpdateSpan, "");
    NoSpanStartsIn(pre, post);
    ReplaceMatchesSkipsPrefix(pre, post, MatchForceUpdateSpan, "");
  }

  /**
   * A line wrapped in an opening and a closing tag cleans to the line with
   * `&nbsp;` decoded and the ends trimmed.
   */
  lemma TaggedLineCleaned(a: string, w: string, b: string)
    requires a != "" && '<' !in a && '>' !in a && (|a| < 4 || a[..4] != "span")
    requires b != "" && '<' !in b && '>' !in b && (|b| < 4 || b[..4] != "span")
    requires '<' !in w && '(' !in w
    ensures CleanMarkup("<" + a + ">" + w + "<" + b + ">") == Trim(Go, ReplaceAll(w, "&nbsp;", " "))
  {
    TagsAroundCleaned(a, w, b);
    CleanMarkupDecodesNbsp(w);
  }

  /** An opening tag before a text without `<` and a closing tag after it are both dropped. */
  lemma TagsAroundCleaned(a: string, w: string, b: string)
    requires a != "" && '<' !in a && '>' !in a && (|a| < 4 || a[..4] != "span")
    requires b != "" && '<' !in b && '>' !in b && (|b| < 4 || b[..4] != "span")
    requires '<' !in w
    ensures CleanMarkup("<" + a + ">" + w + "<" + b + ">") == CleanMarkup(w)
  {
    var rest := w + "<" + b + ">";
    TagsAroundShape(a, w, b);
    CleanMarkupDropsTag("", a, rest);
    CleanMarkupDropsTag(w, b, "");
  }

  /** How the wrapped line regroups around each of its tags. */
  lemma TagsAroundShape(a: string, w: string, b: string)
    ensures "" + "<" + a + ">" + (w + "<" + b + ">") == "<" + a + ">" + w + "<" + b + ">"
    ensures "" + (w + "<" + b + ">") == w + "<" + b + ">"
    ensures w + "<" + b + ">" + "" == w + "<" + b + ">" && w + "" == w
  {
  }

  /** The hidden span starts with `<span`. */
  lemma SpanAt(s: string, i: nat)
    requires i < |s|
    ensures MatchesAt(MatchForceUpdateSpan, s[i..]) ==> OccursAt(s, "<span", i)
  {
    var t := s[i..];
    if MatchesAt(MatchForceUpdateSpan, t) {
      assert t[..5] == s[i..i + 5];
    }
  }

  /** No hidden span starts inside a text without `<`. */
  lemma NoSpanStartsIn(pre: string, x: string)
    requires '<' !in pre
    ensures forall i | 0 <= i < |pre| :: !MatchesAt(MatchForceUpdateSpan, (pre + x)[i..])
  {
    forall i | 0 <= i < |pre|
      ensures !MatchesAt(MatchForceUpdateSpan, (pre + x)[i..])
    {
      assert (pre + x)[i..][0] == pre[i];
      NoSpanAtStart((pre + x)[i..]);
    }
  }

  /** No hidden span starts before or inside a tag that is not a `<span`. */
  lemma NoSpanStartsBefore(pre: string, inner: string, post: string)
    requires '<' !in pre && '<' !in inner && '>' !in inner
    requires |inner| < 4 || inner[..4] != "span"
    ensures var h := pre + "<" + inner + ">";
            forall i | 0 <= i < |h| :: !MatchesAt(MatchForceUpdateSpan, (h + post)[i..])
  {
    var h := pre + "<" + inner + ">";
    var x := h + post;
    forall i | 0 <= i < |h|
      ensures !OccursAt(x, "<span", i)
    {
      if i < |pre| {
        assert x[i] == pre[i];
      } else if i == |pre| {
        if |inner| >= 4 {
          assert x[i + 1..i + 5] == inner[..4];
          assert x[i..i + 5][1..] == x[i + 1..i + 5];
        } else if i + 5 <= |x| {
          assert x[i..i + 5][|inner| + 1] == '>';
        }
      } else if i <= |pre| + |inner| {
        assert x[i] == inner[i - |pre| - 1];
      } else {
        assert x[i] == '>';
      }
    }
    forall i | 0 <= i < |h|
      ensures !MatchesAt(MatchForceUpdateSpan, x[i..])
    {
      SpanAt(x, i);
    }
  }

  /**
   * Without markup or parentheses, the cleaning pass only decodes `&nbsp;`
   * into a space and trims, and no `&nbsp;` is left in what it returns.
   */
  lemma {:induction false} CleanMarkupDecodesNbsp(text: string)
    requires '<' !in text && '(' !in text
    ensures CleanMarkup(text) == Trim(Go, ReplaceAll(text, "&nbsp;", " "))
    ensures !Contains(CleanMarkup(text), "&nbsp;")
  {
    NoMarkupMatches(text);
    ReplaceMatchesNone(text, MatchForceUpdateSpan, "");
    ReplaceMatchesNone(text, MatchTag, "");
    ReplaceAllSelf(text, " ");
    var t4 := ReplaceAll(text, "&nbsp;", " ");
    MissingCharNotContained(t4, "(SYN - ", 0);
    NoArtifactMatches(t4);
    ReplaceMatchesNone(t4, MatchSynArtifact, "");
    ReplaceAllRemovesEvery(text, "&nbsp;", " ");
    TrimIsInfix(Go, t4);
    NotContainsInfix(Trim(Go, t4), t4, "&nbsp;");
  }

  /** holyrics.go:128-136: keeps, unmodified and in order, the lines with non-whitespace content. */
  function FilterEmptyLines(lines: seq<string>): (r: seq<string>)
    ensures |r| <= |lines|
    ensures forall i | 0 <= i < |r| :: !Blank(Go, r[i])
    ensures forall i | 0 <= i < |r| :: r[i] in lines
    ensures forall x | x in lines && !Blank(Go, x) :: x in r
    decreases |lines|
  {
    if |lines| == 0 then []
    else
      var rest := FilterEmptyLines(lines[1..]);
      if Trim(Go, lines[0]) != "" then [lines[0]] + rest else rest
  }

  /** Filtering distributes over concatenation, so the kept lines stay in their original order. */
  lemma {:induction false} FilterEmptyLinesConcat(a: seq<string>, b: seq<string>)
    ensures FilterEmptyLines(a + b) == FilterEmptyLines(a) + FilterEmptyLines(b)
    decreases |a|
  {
    if |a| > 0 {
      assert (a + b)[1..] == a[1..] + b;
      FilterEmptyLinesConcat(a[1..], b);
    } else {
      assert a + b == b;
    }
  }

  /** Nothing is left exactly when every line is whitespace only. */
  lemma FilterEmptyLinesEmpty(lines: seq<string>)
    ensures FilterEmptyLines(lines) == [] <==> forall i | 0 <= i < |lines| :: Blank(Go, lines[i])
  {
    if exists i | 0 <= i < |lines| :: !Blank(Go, lines[i]) {
      var i :| 0 <= i < |lines| && !Blank(Go, lines[i]);
      assert lines[i] in lines;
    }
  }

  function TrimSuffix(s: string, suffix: string): (r: string)
    ensures r == s || r + suffix == s
    ensures |s| >= |suffix| && s[|s| - |suffix|..] == suffix ==> |r| == |s| - |suffix|
  {
    if |s| >= |suffix| && s[|s| - |suffix|..] == suffix then s[..|s| - |suffix|] else s
  }

  /**
   * holyrics.go:138-152: NBSP to space, trim, drop one trailing ")", split on
   * ". " and keep the trimmed non-empty sentences. Every sentence is
   * non-empty, trimmed, free of ". " and of NBSP.
   */
  function ProcessBibleText(text: string): (r: seq<string>)
    ensures forall i | 0 <= i < |r| :: r[i] != "" && IsTrimmed(Go, r[i])
    ensures forall i | 0 <= i < |r| :: !Contains(r[i], ". ")
    ensures forall i | 0 <= i < |r| :: NBSP !in r[i]
    ensures Blank(Go, text) ==> r == []
  {
    var p0 := ReplaceAll(text, [NBSP], " ");
    var p1 := Trim(Go, p0);
    var p2 := TrimSuffix(p1, ")");
    var parts := Split(p2, ". ");
    var r := TrimmedNonBlank(Go, parts);
    SentencesFreeOfSeparators(text);
    if Blank(Go, text) then BlankScriptureEmpty(text); r else r
  }

  /** No scripture sentence holds the separator ". " or a non-breaking space. */
  lemma SentencesFreeOfSeparators(text: string)
    ensures var p2 := TrimSuffix(Trim(Go, ReplaceAll(text, [NBSP], " ")), ")");
            var r := TrimmedNonBlank(Go, Split(p2, ". "));
            forall i | 0 <= i < |r| :: !Contains(r[i], ". ") && NBSP !in r[i]
  {
    var p2 := TrimSuffix(Trim(Go, ReplaceAll(text, [NBSP], " ")), ")");
    var parts := Split(p2, ". ");
    var r := TrimmedNonBlank(Go, parts);
    TrimmedNonBlankKeepsOut(Go, parts, ". ");
    BeforeSplitNoNbsp(text);
    forall i | 0 <= i < |parts|
      ensures !Contains(parts[i], [NBSP])
    {
      NotContainsInfix(parts[i], p2, [NBSP]);
    }
    TrimmedNonBlankKeepsOut(Go, parts, [NBSP]);
    forall i | 0 <= i < |r|
      ensures NBSP !in r[i]
    {
      ContainsSingle(r[i], NBSP);
    }
  }

  /**
   * A scripture text whose cleaned form ends with a period keeps that period:
   * the last sentence ends with '.', since only the ". " separators are cut.
   */
  lemma ScriptureKeepsLastPeriod(text: string)
    requires EndsWithChar(TrimSuffix(Trim(Go, ReplaceAll(text, [NBSP], " ")), ")"), '.')
    ensures |ProcessBibleText(text)| > 0 && EndsWithChar(Last(ProcessBibleText(text)), '.')
  {
    var p2 := TrimSuffix(Trim(Go, ReplaceAll(text, [NBSP], " ")), ")");
    ProcessBibleTextPipeline(text);
    SplitLastEndsLike(p2, ". ");
    LastPieceKeepsPeriod(Split(p2, ". "));
  }

  /** Pieces whose last one ends with '.' keep a last sentence ending with '.'. */
  lemma LastPieceKeepsPeriod(parts: seq<string>)
    requires |parts| > 0 && EndsWithChar(Last(parts), '.')
    ensures |TrimmedNonBlank(Go, parts)| > 0 && EndsWithChar(Last(TrimmedNonBlank(Go, parts)), '.')
  {
    TrimKeepsLastChar(Go, Last(parts), '.');
    TrimmedNonBlankLast(Go, parts);
  }

  /** What reaches the scripture split holds no non-breaking space. */
  lemma BeforeSplitNoNbsp(text: string)
    ensures !Contains(TrimSuffix(Trim(Go, ReplaceAll(text, [NBSP], " ")), ")"), [NBSP])
  {
    var p0 := ReplaceAll(text, [NBSP], " ");
    var p1 := Trim(Go, p0);
    var p2 := TrimSuffix(p1, ")");
    ReplaceAllRemovesEvery(text, [NBSP], " ");
    TrimIsInfix(Go, p0);
    assert IsInfix(p2, p1) by {
      InfixOfSlice(p1, 0, |p2|);
      assert p1[0..|p2|] == p2;
    }
    InfixTransitive(p2, p1, p0);
    NotContainsInfix(p2, p0, [NBSP]);
  }

  /** The scripture pass as one expression: NBSP, trim, one ")", split, keep non-blank. */
  lemma ProcessBibleTextPipeline(text: string)
    ensures ProcessBibleText(text)
            == TrimmedNonBlank(Go, Split(TrimSuffix(Trim(Go, ReplaceAll(text, [NBSP], " ")), ")"), ". "))
  {
  }

  /** A whitespace-only scripture text has no sentences. */
  lemma BlankScriptureEmpty(text: string)
    requires Blank(Go, text)
    ensures TrimmedNonBlank(Go, Split(TrimSuffix(Trim(Go, ReplaceAll(text, [NBSP], " ")), ")"), ". ")) == []
  {
    BlankStaysBlank(text);
    assert Trim(Go, ReplaceAll(text, [NBSP], " ")) == "";
    assert TrimSuffix("", ")") == "";
    assert Split("", ". ") == [""];
  }

  /** Replacing NBSP by a space keeps a whitespace-only text whitespace-only. */
  lemma BlankStaysBlank(text: string)
    requires Blank(Go, text)
    ensures Blank(Go, ReplaceAll(text, [NBSP], " "))
  {
    var p := ReplaceAll(text, [NBSP], " ");
    forall i | 0 <= i < |p|
      ensures IsGoSpace(p[i])
    {
      assert p[i] in p;
    }
  }

  /** The final per-line trim of holyrics.go:120-122. */
  function TrimEach(lines: seq<string>): (r: seq<string>)
    ensures |r| == |lines|
    ensures forall i | 0 <= i < |r| :: r[i] == Trim(Go, lines[i])
    ensures forall i | 0 <= i < |r| :: IsTrimmed(Go, r[i]) && IsInfix(r[i], lines[i])
    ensures forall i | 0 <= i < |r| :: IsTrimmed(Go, lines[i]) ==> r[i] == lines[i]
  {
    var r := seq(|lines|, i requires 0 <= i < |lines| => Trim(Go, lines[i]));
    forall i | 0 <= i < |r|
      ensures IsInfix(r[i], lines[i]) && (IsTrimmed(Go, lines[i]) ==> r[i] == lines[i])
    {
      TrimIsInfix(Go, lines[i]);
      if IsTrimmed(Go, lines[i]) {
        TrimOfTrimmed(Go, lines[i]);
      }
    }
    r
  }

  lemma TrimEachCons(line: string, rest: seq<string>)
    ensures TrimEach([line] + rest) == [Trim(Go, line)] + TrimEach(rest)
  {
    var a := TrimEach([line] + rest);
    var b := [Trim(Go, line)] + TrimEach(rest);
    assert |a| == |b|;
    forall i | 0 <= i < |a|
      ensures a[i] == b[i]
    {
      if i > 0 {
        assert ([line] + rest)[i] == rest[i - 1];
      }
    }
  }

  /** Trimming lines that are all trimmed already changes none of them. */
  lemma TrimEachTrimmed(lines: seq<string>)
    requires forall i | 0 <= i < |lines| :: IsTrimmed(Go, lines[i])
    ensures TrimEach(lines) == lines
  {
    forall i | 0 <= i < |lines|
      ensures TrimEach(lines)[i] == lines[i]
    {
      TrimOfTrimmed(Go, lines[i]);
    }
  }

  /**
   * Filtering out blank lines and then trimming each is the same as
   * trimming every piece and keeping the non-empty results.
   */
  lemma {:induction false} FilterThenTrimEach(lines: seq<string>)
    ensures TrimEach(FilterEmptyLines(lines)) == TrimmedNonBlank(Go, lines)
    decreases |lines|
  {
    if |lines| > 0 {
      FilterThenTrimEach(lines[1..]);
      var rest := FilterEmptyLines(lines[1..]);
      TrimmedNonBlankCons(Go, lines);
      if Trim(Go, lines[0]) != "" {
        assert FilterEmptyLines(lines) == [lines[0]] + rest;
        TrimEachCons(lines[0], rest);
      } else {
        assert FilterEmptyLines(lines) == rest;
      }
    }
  }

  /** Joining whitespace-only pieces with a whitespace separator gives whitespace only. */
  lemma {:induction false} JoinBlank(parts: seq<string>, sep: string)
    requires forall i | 0 <= i < |parts| :: Blank(Go, parts[i])
    requires Blank(Go, sep)
    ensures Blank(Go, Join(parts, sep))
    decreases |parts|
  {
    if |parts| > 1 {
      JoinBlank(parts[1..], sep);
      var j := Join(parts[1..], sep);
      assert Join(parts, sep) == parts[0] + sep + j;
      assert Blank(Go, parts[0]);
    }
  }

  /**
   * holyrics.go:111-112, 120-122: the scripture branch. Sentences are
   * non-empty, trimmed and free of ". "; an empty cleaned text gives none.
   */
  function BibleLines(clean: string): (r: seq<string>)
    ensures forall i | 0 <= i < |r| :: r[i] != "" && IsTrimmed(Go, r[i])
    ensures forall i | 0 <= i < |r| :: !Contains(r[i], ". ")
    ensures clean == "" ==> r == []
    ensures r == ProcessBibleText(clean)
  {
    var lines := ProcessBibleText(clean);
    TrimEachTrimmed(lines);
    TrimEach(lines)
  }

  /**
   * holyrics.go:113-122: the branch for every other type. Lines are
   * non-empty, trimmed and free of "\n", and there are none exactly when the
   * cleaned text is empty.
   */
  function GenericLines(clean: string): (r: seq<string>)
    requires IsTrimmed(Go, clean)
    ensures forall i | 0 <= i < |r| :: r[i] != "" && IsTrimmed(Go, r[i])
    ensures forall i | 0 <= i < |r| :: '\n' !in r[i]
    ensures r == [] <==> clean == ""
    ensures r == TrimmedNonBlank(Go, Split(clean, "\n"))
  {
    var parts := Split(clean, "\n");
    var r := TrimEach(FilterEmptyLines(parts));
    FilterThenTrimEach(parts);
    TrimmedNonBlankKeepsOut(Go, parts, "\n");
    GenericPiecesEmpty(clean);
    assert forall i | 0 <= i < |r| :: '\n' !in r[i] by {
      forall i | 0 <= i < |r|
        ensures '\n' !in r[i]
      {
        ContainsSingle(r[i], '\n');
      }
    }
    r
  }

  /** A trimmed text has no non-blank line exactly when it is empty. */
  lemma GenericPiecesEmpty(clean: string)
    requires IsTrimmed(Go, clean)
    ensures TrimmedNonBlank(Go, Split(clean, "\n")) == [] <==> clean == ""
  {
    var parts := Split(clean, "\n");
    TrimmedNonBlankEmpty(Go, parts);
    if TrimmedNonBlank(Go, parts) == [] {
      JoinBlank(parts, "\n");
    }
    if clean == "" {
      assert parts == [""];
      assert Blank(Go, parts[0]);
    }
  }

  /** Any type other than exactly `BIBLE` takes the line branch. */
  lemma GenericDispatch(text: string, textType: string)
    requires textType != "BIBLE"
    ensures CleanTextToArray(text, textType) == GenericLines(CleanMarkup(text))
  {
  }

  /**
   * holyrics.go:89-125. The branch is chosen by exact equality with "BIBLE".
   * Every line is non-empty and trimmed; an empty cleaned text gives no
   * lines for either type, never an error.
   */
  function CleanTextToArray(text: string, textType: string): (r: seq<string>)
    ensures forall i | 0 <= i < |r| :: r[i] != "" && IsTrimmed(Go, r[i])
    ensures textType == "BIBLE" ==> forall i | 0 <= i < |r| :: !Contains(r[i], ". ")
    ensures textType != "BIBLE" ==> forall i | 0 <= i < |r| :: '\n' !in r[i]
    ensures textType != "BIBLE" ==> (r == [] <==> CleanMarkup(text) == "")
    ensures CleanMarkup(text) == "" ==> r == []
    ensures textType == "BIBLE" ==> r == ProcessBibleText(CleanMarkup(text))
    ensures textType != "BIBLE" ==> r == TrimmedNonBlank(Go, Split(CleanMarkup(text), "\n"))
  {
    var clean := CleanMarkup(text);
    if textType == "BIBLE" then BibleLines(clean) else GenericLines(clean)
  }
}

=== FILE: go_server.dfy ===
/**
 * The Go server's shared state and the events that change it (holyrics.go
 * and server.go): the poller's fetch/diff/broadcast tick, a subscriber's
 * registration, its replay of the last text and the end of its read loop,
 * and the configuration defaults.
 *
 * Each event is one atomic step. The state mutex that guards lastText,
 * lastHeader and lastType is a boolean: it is only ever held across a step
 * on the replay-failure path, where the handler returns without unlocking.
 * A step that would have to wait for the mutex, or that the connection's
 * phase does not allow, is disabled (None).
 */
module GoServer {

  import opened Options
  import opened Text
  import opened Rewrite
  import opened Json
  import opened GoNormalizer

  /** A subscriber connection, identified by a number. */
  type Conn = nat

  /** The JSON message written to a subscriber: `{type, header, content}`. */
  datatype Payload = Payload(kind: string, header: string, content: seq<string>)

  /** Where a connection's handler is: before its replay, in its read loop, or returned. */
  datatype Phase = AwaitingReplay | Reading | Closed

  datatype Server = Server(
    lastText: string,
    lastHeader: string,
    lastType: string,
    clients: set<Conn>,
    phase: map<Conn, Phase>,
    locked: bool)

  /** Process start: empty texts, no connections, mutex free. */
  const Initial: Server := Server("", "", "", {}, map[], false)

  /** Every registered client is a connection whose handler has not returned. */
  predicate Valid(s: Server) {
    forall c | c in s.clients :: c in s.phase && s.phase[c] != Closed
  }

  /** The outcome of one fetch of `/view/text.json` (holyrics.go:27-45). */
  datatype Fetch =
    | TransportError
    | ReadError
    | Undecodable
    | Decoded(body: Json)

  /** The three fields the poller reads from the reply's `map` object. */
  datatype Snapshot = Snapshot(text: string, header: string, kind: string)

  /**
   * holyrics.go:28-55: a failed request, an unreadable body, invalid JSON, or
   * a reply whose `map` member is not an object gives nothing; otherwise the
   * `text`, `header` and `type` members are read as strings, a missing or
   * non-string member reading as "".
   */
  function ExtractSnapshot(f: Fetch): (r: Option<Snapshot>)
    ensures r.Some? <==> f.Decoded? && Member(f.body, "map").Some? && Member(f.body, "map").value.JObj?
    ensures r.Some? ==> r.value.text == GoString(Member(Member(f.body, "map").value, "text"))
    ensures r.Some? ==> r.value.header == GoString(Member(Member(f.body, "map").value, "header"))
    ensures r.Some? ==> r.value.kind == GoString(Member(Member(f.body, "map").value, "type"))
  {
    match f
    case Decoded(body) =>
      var m :- Member(body, "map");
      if m.JObj? then
        Some(Snapshot(GoString(Member(m, "text")), GoString(Member(m, "header")), GoString(Member(m, "type"))))
      else None
    case _ => None
  }

  /** The reply the presentation server sends for a snapshot. */
  function Reply(snap: Snapshot): Json {
    JObj(map["map" := JObj(map["text" := JStr(snap.text), "header" := JStr(snap.header), "type" := JStr(snap.kind)])])
  }

  /** Reading a well-formed reply gives back exactly the fields that were sent. */
  lemma ReplyRoundTrip(snap: Snapshot)
    ensures ExtractSnapshot(Decoded(Reply(snap))) == Some(snap)
  {
    var m := map["text" := JStr(snap.text), "header" := JStr(snap.header), "type" := JStr(snap.kind)];
    assert Member(Reply(snap), "map") == Some(JObj(m));
    assert Member(JObj(m), "text") == Some(JStr(snap.text));
    assert Member(JObj(m), "header") == Some(JStr(snap.header));
    assert Member(JObj(m), "type") == Some(JStr(snap.kind));
  }

  /** A field of another type reads as "" rather than failing the poll (holyrics.go:53-55). */
  lemma NonStringFieldsReadEmpty(text: Json, header: Json, kind: Json)
    requires !text.JStr? && !header.JStr? && !kind.JStr?
    ensures ExtractSnapshot(Decoded(JObj(map["map" := JObj(map["text" := text, "header" := header, "type" := kind])])))
            == Some(Snapshot("", "", ""))
  {
    var m := map["text" := text, "header" := header, "type" := kind];
    assert Member(JObj(m), "text") == Some(text);
    assert Member(JObj(m), "header") == Some(header);
    assert Member(JObj(m), "type") == Some(kind);
  }

  /** What a step wrote: nothing, one replay to one connection, or one payload to a set of clients. */
  datatype Emit =
    | Silent
    | Replayed(target: Conn, payload: Payload)
    | Broadcast(recipients: set<Conn>, payload: Payload)

  datatype Outcome = Outcome(next: Server, emit: Emit)

  /**
   * server.go:37-41: a new connection is added to `clients`, and the
   * registration itself sends nothing; the replay is a later step, which
   * waits for the state mutex.
   */
  function OnConnect(s: Server, c: Conn): (r: Option<Outcome>)
    ensures r.Some? <==> c !in s.phase
    ensures r.Some? ==> r.value.next.clients == s.clients + {c}
    ensures r.Some? ==> r.value.next.phase == s.phase[c := AwaitingReplay]
    ensures r.Some? ==> r.value.emit == Silent && r.value.next.locked == s.locked
    ensures r.Some? ==> r.value.next.lastText == s.lastText && r.value.next.lastHeader == s.lastHeader
                        && r.value.next.lastType == s.lastType
    ensures r.Some? ==> r.value == Outcome(s.(clients := s.clients + {c}, phase := s.phase[c := AwaitingReplay]), Silent)
  {
    if c in s.phase then None
    else Some(Outcome(s.(clients := s.clients + {c}, phase := s.phase[c := AwaitingReplay]), Silent))
  }

  /**
   * server.go:45-50: the replay payload carries the stored type and header
   * and the raw stored text split at every "\n", blank pieces kept: one more
   * line than the text has line breaks, and rejoining them gives the text.
   */
  function ReplayPayload(s: Server): (p: Payload)
    ensures p.kind == s.lastType && p.header == s.lastHeader
    ensures Join(p.content, "\n") == s.lastText
    ensures |p.content| == Count(s.lastText, '\n') + 1
    ensures forall i | 0 <= i < |p.content| :: '\n' !in p.content[i]
  {
    var content := Split(s.lastText, "\n");
    SplitCharCount(s.lastText, '\n');
    assert forall i | 0 <= i < |content| :: '\n' !in content[i] by {
      forall i | 0 <= i < |content|
        ensures '\n' !in content[i]
      {
        ContainsSingle(content[i], '\n');
      }
    }
    Payload(s.lastType, s.lastHeader, content)
  }

  /** How the replay-failure path treats the state mutex. */
  datatype LockHandling =
    | /** server.go:58 as written: return with the mutex still held. */ KeepsLock
    | /** The evident intent: release it before returning. */ ReleasesLock

  /**
   * server.go:43-62: under the state mutex, a non-empty stored text is
   * replayed. If the write fails the connection is dropped from `clients`
   * and the handler returns; otherwise (or when there is nothing to replay)
   * the handler goes on to its read loop.
   */
  function OnReplay(s: Server, c: Conn, writeOk: bool, mode: LockHandling): (r: Option<Outcome>)
    ensures r.Some? <==> c in s.phase && s.phase[c] == AwaitingReplay && !s.locked
    ensures r.Some? && s.lastText == "" ==> r.value == Outcome(s.(phase := s.phase[c := Reading]), Silent)
    ensures r.Some? && s.lastText != "" && writeOk ==>
              r.value == Outcome(s.(phase := s.phase[c := Reading]), Replayed(c, ReplayPayload(s)))
    ensures r.Some? && s.lastText != "" && !writeOk ==>
              r.value.emit == Silent
              && r.value.next.clients == s.clients - {c}
              && r.value.next.phase == s.phase[c := Closed]
              && r.value.next.locked == (mode == KeepsLock)
    ensures r.Some? ==> r.value.next.lastText == s.lastText && r.value.next.lastHeader == s.lastHeader
                        && r.value.next.lastType == s.lastType
  {
    if c !in s.phase || s.phase[c] != AwaitingReplay || s.locked then None
    else if s.lastText == "" then Some(Outcome(s.(phase := s.phase[c := Reading]), Silent))
    else if writeOk then Some(Outcome(s.(phase := s.phase[c := Reading]), Replayed(c, ReplayPayload(s))))
    else
      Some(Outcome(s.(clients := s.clients - {c}, phase := s.phase[c := Closed], locked := mode == KeepsLock), Silent))
  }

  /** server.go:64-80: whatever ends the read loop, the deferred cleanup unregisters the connection. */
  function OnReadEnds(s: Server, c: Conn): (r: Option<Outcome>)
    ensures r.Some? <==> c in s.phase && s.phase[c] == Reading
    ensures r.Some? ==> r.value.next.clients == s.clients - {c} && c !in r.value.next.clients
    ensures r.Some? ==> r.value.next.phase == s.phase[c := Closed] && r.value.emit == Silent
    ensures r.Some? ==> r.value.next.locked == s.locked && r.value.next.lastText == s.lastText
                        && r.value.next.lastHeader == s.lastHeader && r.value.next.lastType == s.lastType
    ensures r.Some? ==> r.value == Outcome(s.(clients := s.clients - {c}, phase := s.phase[c := Closed]), Silent)
  {
    if c in s.phase && s.phase[c] == Reading then
      Some(Outcome(s.(clients := s.clients - {c}, phase := s.phase[c := Closed]), Silent))
    else None
  }

  /** holyrics.go:61-68: the payload broadcast for a new text, its type upper-cased. */
  function PollPayload(snap: Snapshot): (p: Payload)
    ensures p.kind == ToUpper(snap.kind) && p.header == snap.header
    ensures forall i | 0 <= i < |p.content| :: p.content[i] != "" && IsTrimmed(Go, p.content[i])
    ensures p.content == CleanTextToArray(snap.text, ToUpper(snap.kind))
    ensures ToUpper(snap.kind) == "BIBLE" ==> p.content == ProcessBibleText(CleanMarkup(snap.text))
    ensures ToUpper(snap.kind) != "BIBLE" ==> p.content == TrimmedNonBlank(Go, Split(CleanMarkup(snap.text), "\n"))
  {
    var kind := ToUpper(snap.kind);
    Payload(kind, snap.header, CleanTextToArray(snap.text, kind))
  }

  /**
   * holyrics.go:47-84: one poll tick. A fetch that yields no snapshot changes
   * nothing and does not touch the mutex. Otherwise, under the mutex, a text
   * equal to the stored one changes nothing (a new header or type alone is
   * ignored); a new text is stored with its header and upper-cased type and
   * written to every client, and the clients in `failing`, whose writes
   * fail, are closed and unregistered.
   */
  function OnPoll(s: Server, fetch: Fetch, failing: set<Conn>): (r: Option<Outcome>)
    ensures ExtractSnapshot(fetch).None? ==> r == Some(Outcome(s, Silent))
    ensures ExtractSnapshot(fetch).Some? ==> (r.Some? <==> !s.locked)
    ensures r.Some? && ExtractSnapshot(fetch).Some? && ExtractSnapshot(fetch).value.text == s.lastText ==>
              r.value == Outcome(s, Silent)
    ensures r.Some? && ExtractSnapshot(fetch).Some? && ExtractSnapshot(fetch).value.text != s.lastText ==>
              var snap := ExtractSnapshot(fetch).value;
              && r.value.next.lastText == snap.text
              && r.value.next.lastHeader == snap.header
              && r.value.next.lastType == ToUpper(snap.kind)
              && r.value.next.clients == s.clients - failing
              && r.value.next.phase == s.phase
              && r.value.emit == Broadcast(s.clients - failing, PollPayload(snap))
    ensures r.Some? ==> r.value.next.locked == s.locked
  {
    match ExtractSnapshot(fetch)
    case None => Some(Outcome(s, Silent))
    case Some(snap) =>
      if s.locked then None
      else if snap.text == s.lastText then Some(Outcome(s, Silent))
      else
        var next := s.(lastText := snap.text, lastHeader := snap.header, lastType := ToUpper(snap.kind),
                       clients := s.clients - failing);
        Some(Outcome(next, Broadcast(s.clients - failing, PollPayload(snap))))
  }

  datatype Event =
    | Connect(c: Conn)
    | Replay(c: Conn, writeOk: bool)
    | ReadEnds(c: Conn)
    | Poll(fetch: Fetch, failing: set<Conn>)

  /**
   * One event. Every step keeps each client a connection whose handler has
   * not returned, delivers only to registered clients, and never takes the
   * mutex for good unless the replay-failure path keeps it.
   */
  function Step(s: Server, e: Event, mode: LockHandling): (r: Option<Outcome>)
    ensures Valid(s) && r.Some? ==> Valid(r.value.next)
    ensures r.Some? && r.value.emit.Broadcast? ==> r.value.emit.recipients <= s.clients
    ensures r.Some? && r.value.emit.Replayed? ==> r.value.emit.target in s.phase && s.phase[r.value.emit.target] == AwaitingReplay
    ensures r.Some? && mode == ReleasesLock ==> r.value.next.locked == s.locked
    ensures r.Some? && s.locked ==> r.value.next.locked
  {
    match e
    case Connect(c) => OnConnect(s, c)
    case Replay(c, ok) => OnReplay(s, c, ok, mode)
    case ReadEnds(c) => OnReadEnds(s, c)
    case Poll(f, failing) => OnPoll(s, f, failing)
  }

  /** A run of events from `s`: each enabled event is taken, a disabled one is skipped. */
  function Run(s: Server, events: seq<Event>, mode: LockHandling): (r: (Server, seq<Emit>))
    ensures |r.1| == |events|
    decreases |events|
  {
    if |events| == 0 then (s, [])
    else
      var (s1, e1) := match Step(s, events[0], mode)
        case Some(o) => (o.next, o.emit)
        case None => (s, Silent);
      var (sn, rest) := Run(s1, events[1..], mode);
      (sn, [e1] + rest)
  }

  /** Validity holds along every run. */
  lemma {:induction false} RunKeepsValid(s: Server, events: seq<Event>, mode: LockHandling)
    requires Valid(s)
    ensures Valid(Run(s, events, mode).0)
    decreases |events|
  {
    if |events| > 0 {
      var o := Step(s, events[0], mode);
      var s1 := if o.Some? then o.value.next else s;
      RunKeepsValid(s1, events[1..], mode);
    }
  }

  /** With the mutex released on every path, a run from a free mutex never ends with it held. */
  lemma {:induction false} ReleasedLockStaysFree(s: Server, events: seq<Event>)
    requires !s.locked
    ensures !Run(s, events, ReleasesLock).0.locked
    decreases |events|
  {
    if |events| > 0 {
      var o := Step(s, events[0], ReleasesLock);
      var s1 := if o.Some? then o.value.next else s;
      ReleasedLockStaysFree(s1, events[1..]);
    }
  }

  /**
   * With the mutex released, a poll bringing a new text is never blocked:
   * every client whose write succeeds receives it.
   */
  lemma NewTextAlwaysBroadcast(s: Server, fetch: Fetch, failing: set<Conn>)
    requires !s.locked
    requires ExtractSnapshot(fetch).Some? && ExtractSnapshot(fetch).value.text != s.lastText
    ensures Step(s, Poll(fetch, failing), ReleasesLock).Some?
    ensures Step(s, Poll(fetch, failing), ReleasesLock).value.emit
            == Broadcast(s.clients - failing, PollPayload(ExtractSnapshot(fetch).value))
  {
    assert Step(s, Poll(fetch, failing), ReleasesLock) == OnPoll(s, fetch, failing);
  }

  /**
   * Registration comes before the replay, and the two are separate steps:
   * a poll with a new text that lands between them reaches the new
   * subscriber, which then receives the same text again as its replay, raw
   * and split only at line breaks.
   */
  lemma PollBetweenConnectAndReplay(s: Server, c: Conn, fetch: Fetch, failing: set<Conn>, mode: LockHandling)
    requires !s.locked && c !in s.phase && c !in failing
    requires ExtractSnapshot(fetch).Some? && ExtractSnapshot(fetch).value.text != s.lastText
    requires ExtractSnapshot(fetch).value.text != ""
    ensures var s1 := OnConnect(s, c).value.next;
            var o2 := OnPoll(s1, fetch, failing).value;
            && o2.emit.Broadcast? && c in o2.emit.recipients
            && OnReplay(o2.next, c, true, mode) == Some(Outcome(o2.next.(phase := o2.next.phase[c := Reading]), Replayed(c, ReplayPayload(o2.next))))
            && Join(ReplayPayload(o2.next).content, "\n") == ExtractSnapshot(fetch).value.text
  {
  }

  /** A state in which one connection waits for the replay of a stored text. */
  const LeakWitness: Server := Server("x", "", "", {0}, map[0 := AwaitingReplay], false)

  /** As written, a failed replay write leaves the state mutex held. */
  lemma ReplayFailureKeepsLock()
    ensures Step(LeakWitness, Replay(0, false), KeepsLock).Some?
    ensures Step(LeakWitness, Replay(0, false), KeepsLock).value.next.locked
  {
  }

  /**
   * Once the mutex is leaked nothing is ever replayed or broadcast again:
   * every later poll that reads a snapshot and every later replay blocks
   * on the mutex.
   */
  lemma {:induction false} LeakedLockSilencesServer(s: Server, events: seq<Event>)
    requires s.locked
    ensures Run(s, events, KeepsLock).0.locked
    ensures forall i | 0 <= i < |events| :: Run(s, events, KeepsLock).1[i] == Silent
    decreases |events|
  {
    if |events| > 0 {
      var o := Step(s, events[0], KeepsLock);
      var s1 := if o.Some? then o.value.next else s;
      assert o.Some? ==> o.value.emit == Silent;
      LeakedLockSilencesServer(s1, events[1..]);
      var rest := Run(s1, events[1..], KeepsLock).1;
      assert Run(s, events, KeepsLock).1 == [Silent] + rest;
    }
  }

  /** "bible" from the presentation server is upper-cased before dispatch, so it is segmented as scripture. */
  lemma LowercaseBibleIsScripture(text: string, header: string)
    ensures PollPayload(Snapshot(text, header, "bible")).kind == "BIBLE"
    ensures PollPayload(Snapshot(text, header, "bible")).content == CleanTextToArray(text, "BIBLE")
  {
    UpperBible();
  }

  lemma UpperBible()
    ensures ToUpper("bible") == "BIBLE"
  {
    var u := ToUpper("bible");
    assert u[0] == 'B' && u[1] == 'I' && u[2] == 'B' && u[3] == 'L' && u[4] == 'E';
  }

  /** The server's settings (server.go:26-28). */
  datatype Config = Config(port: string, lyricsUrl: string, lyricsPort: string)

  /** environments.go:17-23: the variable's value, or `fallback` when it is unset or empty. */
  function GetEnv(env: map<string, string>, key: string, fallback: string): (r: string)
    ensures r == fallback <==> key !in env || env[key] == "" || env[key] == fallback
    ensures r != fallback ==> key in env && r == env[key]
    ensures fallback != "" ==> r != ""
  {
    if key in env && env[key] != "" then env[key] else fallback
  }

  /** server.go:26-28 */
  function LoadConfig(env: map<string, string>): (c: Config)
    ensures c.port != "" && c.lyricsUrl != "" && c.lyricsPort != ""
  {
    Config(GetEnv(env, "PORT", "3000"), GetEnv(env, "LYRICS_URL", "localhost"), GetEnv(env, "LYRICS_PORT", "4747"))
  }

  /**
   * Each setting falls back to its own default exactly when its variable is
   * unset or empty, whatever else the environment holds.
   */
  lemma DefaultConfig(env: map<string, string>)
    ensures ("PORT" !in env || env["PORT"] == "") ==> LoadConfig(env).port == "3000"
    ensures ("LYRICS_URL" !in env || env["LYRICS_URL"] == "") ==> LoadConfig(env).lyricsUrl == "localhost"
    ensures ("LYRICS_PORT" !in env || env["LYRICS_PORT"] == "") ==> LoadConfig(env).lyricsPort == "4747"
  {
  }

  /** Variables other than the three settings do not change the configuration. */
  lemma ConfigIgnoresOtherVariables(env: map<string, string>, key: string, value: string)
    requires key != "PORT" && key != "LYRICS_URL" && key != "LYRICS_PORT"
    ensures LoadConfig(env[key := value]) == LoadConfig(env)
  {
  }

  /** A non-empty variable always wins over its default, for each of the three settings. */
  lemma ConfigOverride(env: map<string, string>)
    ensures "PORT" in env && env["PORT"] != "" ==> LoadConfig(env).port == env["PORT"]
    ensures "LYRICS_URL" in env && env["LYRICS_URL"] != "" ==> LoadConfig(env).lyricsUrl == env["LYRICS_URL"]
    ensures "LYRICS_PORT" in env && env["LYRICS_PORT"] != "" ==> LoadConfig(env).lyricsPort == env["LYRICS_PORT"]
  {
  }
}

=== FILE: json.dfy ===
/**
 * Decoded JSON values, as both servers see the presentation server's
 * `/view/text.json` reply once it has been parsed, and the two languages'
 * ways of reading a field out of them. Parsing itself is not modelled.
 */
module Json {

  import opened Options

  datatype Json =
    | JNull
    | JBool(b: bool)
    | JNum(x: real)
    | JStr(s: string)
    | JArr(items: seq<Json>)
    | JObj(members: map<string, Json>)

  /** `obj[key]`: the member, or None when `j` is not an object or has no such key. */
  function Member(j: Json, key: string): (r: Option<Json>)
    ensures r.Some? <==> j.JObj? && key in j.members
    ensures r.Some? ==> r.value == j.members[key]
  {
    if j.JObj? && key in j.members then Some(j.members[key]) else None
  }

  /**
   * Go's `v, _ := m[key].(string)`: the string held by the member, or the
   * zero value "" when it is missing or of another type.
   */
  function GoString(m: Option<Json>): (r: string)
    ensures m.Some? && m.value.JStr? ==> r == m.value.s
    ensures !(m.Some? && m.value.JStr?) ==> r == ""
  {
    if m.Some? && m.value.JStr? then m.value.s else ""
  }

  /**
   * JavaScript truthiness of a member read: `undefined` (a missing member),
   * `null`, `false`, `0` and `""` are falsy, every other value is truthy.
   */
  function Truthy(m: Option<Json>): (b: bool)
    ensures b ==> m.Some? && !m.value.JNull?
    ensures m.Some? && (m.value.JArr? || m.value.JObj?) ==> b
    ensures m.Some? && m.value.JStr? ==> (b <==> m.value.s != "")
    ensures m.Some? && m.value.JBool? ==> (b <==> m.value.b)
    ensures m.Some? && m.value.JNum? ==> (b <==> m.value.x != 0.0)
  {
    match m
    case None => false
    case Some(JNull) => false
    case Some(JBool(b)) => b
    case Some(JNum(x)) => x != 0.0
    case Some(JStr(s)) => s != ""
    case Some(JArr(_)) => true
    case Some(JObj(_)) => true
  }
}

=== FILE: options.dfy ===
/** An optional value, usable with `:-` so that pattern matchers read as a chain of steps. */
module Options {

  datatype Option<+T> = None | Some(value: T) {

    predicate IsFailure() {
      None?
    }

    function PropagateFailure<U>(): Option<U>
      requires None?
    {
      None
    }

    function Extract(): T
      requires Some?
    {
      value
    }

    function GetOr(default: T): T {
      match this
      case Some(v) => v
      case None => default
    }
  }
}

=== FILE: patterns.dfy ===
/**
 * Building blocks for hand-written matchers of regular expressions. Each
 * works on a position `i` of a text and answers the position just past what
 * it consumed, or None when it cannot match there.
 */
module Patterns {

  import opened Options
  import opened Text

  /** The literal `w` at position `i`. */
  function Lit(s: string, i: nat, w: string): (r: Option<nat>)
    ensures r.Some? <==> OccursAt(s, w, i)
    ensures r.Some? ==> r.value == i + |w|
  {
    if OccursAt(s, w, i) then Some(i + |w|) else None
  }

  /** The literal `w` at position `i`, comparing ASCII letters without regard to case. */
  function LitIgnoringCase(s: string, i: nat, w: string): (r: Option<nat>)
    ensures r.Some? <==> OccursAtIgnoringCase(s, w, i)
    ensures r.Some? ==> r.value == i + |w|
  {
    if OccursAtIgnoringCase(s, w, i) then Some(i + |w|) else None
  }

  /** The end of the longest run of `cls` characters starting at `i` (greedy `cls*`). */
  function RunEnd(s: string, i: nat, cls: char -> bool): (e: nat)
    requires i <= |s|
    ensures i <= e <= |s|
    ensures forall k | i <= k < e :: cls(s[k])
    ensures e < |s| ==> !cls(s[e])
    decreases |s| - i
  {
    if i < |s| && cls(s[i]) then RunEnd(s, i + 1, cls) else i
  }

  /** Greedy `cls+`: the run must hold at least one character. */
  function Run1(s: string, i: nat, cls: char -> bool): (r: Option<nat>)
    requires i <= |s|
    ensures r.Some? <==> i < |s| && cls(s[i])
    ensures r.Some? ==> r.value == RunEnd(s, i, cls)
  {
    if i < |s| && cls(s[i]) then Some(RunEnd(s, i, cls)) else None
  }

  /** Exactly one character of class `cls`. */
  function One(s: string, i: nat, cls: char -> bool): (r: Option<nat>)
    ensures r.Some? <==> i < |s| && cls(s[i])
    ensures r.Some? ==> r.value == i + 1
  {
    if i < |s| && cls(s[i]) then Some(i + 1) else None
  }

  /** Greedy `cls?`. */
  function Opt(s: string, i: nat, cls: char -> bool): (e: nat)
    ensures e == i || (e == i + 1 && i < |s| && cls(s[i]))
    ensures i < |s| && cls(s[i]) ==> e == i + 1
  {
    if i < |s| && cls(s[i]) then i + 1 else i
  }

  predicate IsQuote(c: char) {
    c == '\'' || c == '"'
  }

  /** The `\s` class of Go's RE2 syntax: ASCII tab, newline, form feed, carriage return and space. */
  predicate IsRe2Space(c: char) {
    c == '\t' || c == '\n' || c == '\U{C}' || c == '\r' || c == ' '
  }

  predicate IsUpperOrDigit(c: char) {
    ('A' <= c <= 'Z') || IsDigit(c)
  }
}

=== FILE: rewrite.dfy ===
/**
 * Splitting, joining and replace-all over strings: Go's `strings.Split`,
 * `strings.Join` and `strings.ReplaceAll`, and the replace-all of a regular
 * expression given as a matcher.
 */
module Rewrite {

  import opened Options
  import opened Text

  /** Go's `strings.Join`: the parts with `sep` between each neighbouring pair. */
  function Join(parts: seq<string>, sep: string): string
    decreases |parts|
  {
    if |parts| == 0 then ""
    else if |parts| == 1 then parts[0]
    else parts[0] + sep + Join(parts[1..], sep)
  }

  /**
   * Go's `strings.Split` for a non-empty separator: the pieces between the
   * leftmost non-overlapping occurrences of `sep`. There is always at least one
   * piece (`Split("", sep) == [""]`), joining them back gives `s`, and no
   * piece contains the separator.
   */
  function Split(s: string, sep: string): (r: seq<string>)
    requires |sep| > 0
    ensures |r| >= 1
    ensures Join(r, sep) == s
    ensures forall i | 0 <= i < |r| :: !Contains(r[i], sep)
    ensures forall i | 0 <= i < |r| :: IsInfix(r[i], s)
    decreases |s|
  {
    match IndexOf(s, sep, 0)
    case None => InfixReflexive(s); [s]
    case Some(k) =>
      var rest := Split(s[k + |sep|..], sep);
      JoinCons(s[..k], rest, sep);
      assert s == s[..k] + sep + s[k + |sep|..];
      BeforeFirstFree(s, sep, k);
      InfixOfSlice(s, 0, k);
      SuffixInfixes(s, k + |sep|, rest);
      PiecesCons(s[..k], rest, sep, s);
      [s[..k]] + rest
  }

  lemma JoinCons(first: string, rest: seq<string>, sep: string)
    requires |rest| >= 1
    ensures Join([first] + rest, sep) == first + sep + Join(rest, sep)
  {
    assert ([first] + rest)[1..] == rest;
  }

  /** The piece properties of `Split` carry over to one more piece in front. */
  lemma PiecesCons(first: string, rest: seq<string>, sep: string, s: string)
    requires !Contains(first, sep) && IsInfix(first, s)
    requires forall i | 0 <= i < |rest| :: !Contains(rest[i], sep) && IsInfix(rest[i], s)
    ensures forall i | 0 <= i < |rest| + 1 :: !Contains(([first] + rest)[i], sep) && IsInfix(([first] + rest)[i], s)
  {
    forall i | 0 <= i < |rest| + 1
      ensures !Contains(([first] + rest)[i], sep) && IsInfix(([first] + rest)[i], s)
    {
      if i > 0 {
        assert ([first] + rest)[i] == rest[i - 1];
      }
    }
  }

  /** The text before the first occurrence of `w` does not contain `w`. */
  lemma BeforeFirstFree(s: string, w: string, k: nat)
    requires |w| > 0 && k <= |s|
    requires forall j | 0 <= j < k :: !OccursAt(s, w, j)
    ensures !Contains(s[..k], w)
  {
    if Contains(s[..k], w) {
      var j :| 0 <= j <= k - |w| && OccursAt(s[..k], w, j);
      assert s[..k][j..j + |w|] == s[j..j + |w|];
      assert OccursAt(s, w, j);
    }
  }

  /** Substrings of a suffix are substrings of the whole text. */
  lemma SuffixInfixes(s: string, e: nat, pieces: seq<string>)
    requires e <= |s|
    requires forall i | 0 <= i < |pieces| :: IsInfix(pieces[i], s[e..])
    ensures forall i | 0 <= i < |pieces| :: IsInfix(pieces[i], s)
  {
    InfixOfSlice(s, e, |s|);
    assert s[e..|s|] == s[e..];
    forall i | 0 <= i < |pieces|
      ensures IsInfix(pieces[i], s)
    {
      InfixTransitive(pieces[i], s[e..], s);
    }
  }

  /** The last part of a join is the end of the joined text. */
  lemma {:induction false} JoinEndsWithLast(parts: seq<string>, sep: string)
    requires |parts| > 0
    ensures var j := Join(parts, sep); var l := parts[|parts| - 1];
            |l| <= |j| && j[|j| - |l|..] == l
    decreases |parts|
  {
    if |parts| > 1 {
      JoinEndsWithLast(parts[1..], sep);
      assert parts[1..][|parts| - 2] == parts[|parts| - 1];
    }
  }

  /**
   * A text that ends with a character other than the separator's last one
   * splits into a last piece that ends with that same character.
   */
  lemma {:induction false} SplitLastEndsLike(s: string, sep: string)
    requires |sep| > 0 && |s| > 0 && s[|s| - 1] != sep[|sep| - 1]
    ensures EndsWithChar(Last(Split(s, sep)), s[|s| - 1])
  {
    JoinLastEndsLike(Split(s, sep), sep, s);
  }

  /** The last of some pieces. */
  function Last(r: seq<string>): string
    requires |r| > 0
  {
    r[|r| - 1]
  }

  /** The generic half of SplitLastEndsLike, about any parts that join to a text. */
  lemma {:induction false} JoinLastEndsLike(r: seq<string>, sep: string, s: string)
    requires |sep| > 0 && |r| > 0 && Join(r, sep) == s
    requires |s| > 0 && s[|s| - 1] != sep[|sep| - 1]
    ensures EndsWithChar(Last(r), s[|s| - 1])
  {
    var l := r[|r| - 1];
    if |l| == 0 {
      if |r| > 1 {
        JoinLastSeparator(r, sep);
      }
    } else {
      JoinEndsWithLast(r, sep);
      assert s[|s| - |l|..] == l;
      assert l[|l| - 1] == s[|s| - |l|..][|l| - 1];
    }
  }

  /** With two parts or more, the joined text ends with the separator and the last part. */
  lemma {:induction false} JoinLastSeparator(parts: seq<string>, sep: string)
    requires |parts| > 1
    ensures var j := Join(parts, sep); var l := parts[|parts| - 1];
            |sep| + |l| <= |j| && j[|j| - |l| - |sep|..] == sep + l
    decreases |parts|
  {
    if |parts| > 2 {
      JoinLastSeparator(parts[1..], sep);
      assert parts[1..][|parts| - 2] == parts[|parts| - 1];
    }
  }

  /** A text without the separator is a single piece. */
  lemma SplitAbsent(s: string, sep: string)
    requires |sep| > 0 && !Contains(s, sep)
    ensures Split(s, sep) == [s]
  {
  }

  /** Splitting at the first separator: the text before it, then the pieces of the text after it. */
  lemma SplitFirst(s: string, sep: string, k: nat)
    requires |sep| > 0 && OccursAt(s, sep, k)
    requires forall j | 0 <= j < k :: !OccursAt(s, sep, j)
    ensures Split(s, sep) == [s[..k]] + Split(s[k + |sep|..], sep)
  {
    assert IndexOf(s, sep, 0) == Some(k);
  }

  /** The number of times `c` occurs in `s`. */
  function Count(s: string, c: char): nat {
    multiset(s)[c]
  }

  /** Splitting on one character gives one more piece than there are occurrences of it. */
  lemma {:induction false} SplitCharCount(s: string, c: char)
    ensures |Split(s, [c])| == Count(s, c) + 1
    decreases |s|
  {
    match IndexOf(s, [c], 0)
    case None =>
      NoOccurrenceNoChar(s, c, |s|);
      assert s[..|s|] == s;
    case Some(k) =>
      SplitCharCount(s[k + 1..], c);
      assert Split(s, [c]) == [s[..k]] + Split(s[k + 1..], [c]);
      assert s[k..k + 1][0] == s[k] == c;
      NoOccurrenceNoChar(s, c, k);
      CountAround(s, k);
  }

  /** Before the first occurrence of `[c]` there is no `c`. */
  lemma NoOccurrenceNoChar(s: string, c: char, k: nat)
    requires k <= |s|
    requires forall j | 0 <= j < k :: !OccursAt(s, [c], j)
    ensures c !in s[..k]
  {
    forall j | 0 <= j < k
      ensures s[..k][j] != c
    {
      assert !OccursAt(s, [c], j);
      assert s[j..j + 1] == [s[j]];
    }
  }

  /** The occurrences of `s[k]` are those before `k`, the one at `k`, and those after. */
  lemma CountAround(s: string, k: nat)
    requires k < |s|
    ensures Count(s, s[k]) == multiset(s[..k])[s[k]] + 1 + Count(s[k + 1..], s[k])
  {
    assert s == s[..k] + [s[k]] + s[k + 1..];
    assert multiset(s) == multiset(s[..k]) + multiset([s[k]]) + multiset(s[k + 1..]);
  }

  /**
   * Go's `strings.ReplaceAll` for a non-empty pattern: scanning left to
   * right, each occurrence of `from` becomes `to` and scanning resumes after it.
   */
  function ReplaceAll(s: string, from: string, to: string): (r: string)
    requires |from| > 0
    ensures forall c | c in r :: c in s || c in to
    ensures |to| == |from| ==> |r| == |s|
    decreases |s|
  {
    if |s| == 0 then ""
    else if OccursAt(s, from, 0) then to + ReplaceAll(s[|from|..], from, to)
    else [s[0]] + ReplaceAll(s[1..], from, to)
  }

  /** A text without the pattern comes through ReplaceAll unchanged. */
  lemma {:induction false} ReplaceAllAbsent(s: string, from: string, to: string)
    requires |from| > 0 && !Contains(s, from)
    ensures ReplaceAll(s, from, to) == s
    decreases |s|
  {
    if |s| > 0 {
      assert !OccursAt(s, from, 0);
      assert !Contains(s[1..], from) by {
        forall k | 0 <= k <= |s| - 1 - |from|
          ensures !OccursAt(s[1..], from, k)
        {
          assert s[1..][k..k + |from|] == s[k + 1..k + 1 + |from|];
          assert !OccursAt(s, from, k + 1);
        }
      }
      ReplaceAllAbsent(s[1..], from, to);
      assert s == [s[0]] + s[1..];
    }
  }

  /** An occurrence at the front becomes `to`, and the replacement carries on after it. */
  lemma ReplaceAllAtFront(from: string, x: string, to: string)
    requires |from| > 0
    ensures ReplaceAll(from + x, from, to) == to + ReplaceAll(x, from, to)
  {
    var s := from + x;
    assert OccursAt(s, from, 0) by { assert s[0..|from|] == from; }
    assert s[|from|..] == x;
  }

  /** A prefix where the pattern does not start comes through ReplaceAll unchanged. */
  lemma {:induction false} ReplaceAllSkipsPrefix(pre: string, x: string, from: string, to: string)
    requires |from| > 0
    requires forall i | 0 <= i < |pre| :: !OccursAt(pre + x, from, i)
    ensures ReplaceAll(pre + x, from, to) == pre + ReplaceAll(x, from, to)
    decreases |pre|
  {
    var s := pre + x;
    if |pre| > 0 {
      var rest := pre[1..] + x;
      assert !OccursAt(s, from, 0);
      assert s[1..] == rest;
      forall i | 0 <= i < |pre| - 1
        ensures !OccursAt(rest, from, i)
      {
        assert !OccursAt(s, from, i + 1);
        if i + |from| <= |rest| {
          assert rest[i..i + |from|] == s[i + 1..i + 1 + |from|];
        }
      }
      ReplaceAllSkipsPrefix(pre[1..], x, from, to);
      calc {
        ReplaceAll(s, from, to);
        [s[0]] + ReplaceAll(rest, from, to);
        [pre[0]] + (pre[1..] + ReplaceAll(x, from, to));
        { assert pre == [pre[0]] + pre[1..]; }
        pre + ReplaceAll(x, from, to);
      }
    } else {
      assert s == x;
    }
  }

  /** Replacing a pattern by itself changes nothing. */
  lemma {:induction false} ReplaceAllSelf(s: string, w: string)
    requires |w| > 0
    ensures ReplaceAll(s, w, w) == s
    decreases |s|
  {
    if |s| == 0 {
    } else if OccursAt(s, w, 0) {
      ReplaceAllSelf(s[|w|..], w);
      assert s == s[..|w|] + s[|w|..];
    } else {
      ReplaceAllSelf(s[1..], w);
      assert s == [s[0]] + s[1..];
    }
  }

  /** No character of `a` occurs in `b`. */
  predicate Disjoint(a: string, b: string) {
    forall i | 0 <= i < |a| :: a[i] !in b
  }

  /**
   * If the output of ReplaceAll starts with `w`, and `w` shares no character
   * with a non-empty replacement, the input started with `w` too.
   */
  lemma {:induction false} ReplaceAllKeepsPrefix(t: string, from: string, to: string, w: string)
    requires |from| > 0 && |to| > 0
    requires Disjoint(w, to)
    requires |w| <= |ReplaceAll(t, from, to)| && ReplaceAll(t, from, to)[..|w|] == w
    ensures |w| <= |t| && t[..|w|] == w
    decreases |w|
  {
    if |w| > 0 {
      var r := ReplaceAll(t, from, to);
      assert r[0] == w[0];
      assert w[0] !in to;
      if OccursAt(t, from, 0) {
        assert false;
      }
      var tail := ReplaceAll(t[1..], from, to);
      assert r == [t[0]] + tail;
      assert tail[..|w| - 1] == w[1..];
      ReplaceAllKeepsPrefix(t[1..], from, to, w[1..]);
      assert t[..|w|] == [t[0]] + t[1..][..|w| - 1];
    }
  }

  /**
   * When the replacement is non-empty and shares no character with the
   * pattern, no occurrence of the pattern survives ReplaceAll.
   */
  lemma {:induction false} ReplaceAllRemovesEvery(s: string, from: string, to: string)
    requires |from| > 0 && |to| > 0
    requires Disjoint(from, to)
    ensures !Contains(ReplaceAll(s, from, to), from)
    decreases |s|
  {
    if |s| == 0 {
    } else if OccursAt(s, from, 0) {
      ReplaceAllRemovesEvery(s[|from|..], from, to);
      NoOccurrenceAfterReplacement(from, to, ReplaceAll(s[|from|..], from, to));
    } else {
      ReplaceAllRemovesEvery(s[1..], from, to);
      NoOccurrenceAfterKept(s, from, to);
    }
  }

  /** A disjoint replacement followed by a pattern-free text is pattern-free. */
  lemma NoOccurrenceAfterReplacement(from: string, to: string, tail: string)
    requires |from| > 0 && Disjoint(from, to)
    requires !Contains(tail, from)
    ensures !Contains(to + tail, from)
  {
    var r := to + tail;
    forall k | 0 <= k <= |r| - |from|
      ensures !OccursAt(r, from, k)
    {
      if k < |to| {
        assert r[k] == to[k] && from[0] !in to;
      } else {
        assert r[k..k + |from|] == tail[k - |to|..k - |to| + |from|];
        assert !OccursAt(tail, from, k - |to|);
      }
    }
  }

  /** An occurrence at the front of the output comes from one at the front of the input. */
  lemma OccurrenceAtFront(s: string, from: string, to: string)
    requires |from| > 0 && |to| > 0 && Disjoint(from, to)
    requires |s| > 0 && !OccursAt(s, from, 0)
    ensures !OccursAt(ReplaceAll(s, from, to), from, 0)
  {
    var tail := ReplaceAll(s[1..], from, to);
    var r := ReplaceAll(s, from, to);
    assert r == [s[0]] + tail;
    if OccursAt(r, from, 0) {
      var w := from[1..];
      assert r[..|from|] == from;
      assert tail[..|w|] == w by {
        forall i | 0 <= i < |w|
          ensures tail[i] == w[i]
        {
          assert tail[i] == r[i + 1] == from[i + 1];
        }
      }
      assert Disjoint(w, to) by {
        forall i | 0 <= i < |w|
          ensures w[i] !in to
        {
          assert w[i] == from[i + 1];
        }
      }
      ReplaceAllKeepsPrefix(s[1..], from, to, w);
      assert false;
    }
  }

  /** An occurrence past the first character is an occurrence in the rest. */
  lemma OccursAfterFirst(c: char, tail: string, w: string, k: int)
    requires k >= 1
    ensures OccursAt([c] + tail, w, k) <==> OccursAt(tail, w, k - 1)
  {
    if 0 <= k - 1 && k - 1 + |w| <= |tail| {
      assert ([c] + tail)[k..k + |w|] == tail[k - 1..k - 1 + |w|];
    }
  }

  /** Keeping a character that starts no occurrence cannot create one. */
  lemma NoOccurrenceAfterKept(s: string, from: string, to: string)
    requires |from| > 0 && |to| > 0 && Disjoint(from, to)
    requires |s| > 0 && !OccursAt(s, from, 0)
    requires !Contains(ReplaceAll(s[1..], from, to), from)
    ensures !Contains(ReplaceAll(s, from, to), from)
  {
    var tail := ReplaceAll(s[1..], from, to);
    assert ReplaceAll(s, from, to) == [s[0]] + tail;
    OccurrenceAtFront(s, from, to);
    forall k | 1 <= k <= |s[0..1] + tail| - |from|
      ensures !OccursAt([s[0]] + tail, from, k)
    {
      OccursAfterFirst(s[0], tail, from, k);
    }
  }

  /** `m(t)` reports a regular-expression match of positive length at the start of `t`. */
  predicate MatchesAt(m: string -> Option<nat>, t: string) {
    m(t).Some? && 0 < m(t).value <= |t|
  }

  /**
   * Global replace of a regular expression whose match at each start position
   * is unique: at each position either a match is removed and replaced by
   * `rep`, or the character is kept. This is the result of Go's
   * `ReplaceAllString` and of JavaScript's `replace(/…/g, rep)` for the
   * non-empty patterns modelled here.
   */
  function ReplaceMatches(s: string, m: string -> Option<nat>, rep: string): (r: string)
    ensures forall c | c in r :: c in s || c in rep
    ensures rep == "" ==> |r| <= |s|
    decreases |s|
  {
    if |s| == 0 then ""
    else if MatchesAt(m, s) then rep + ReplaceMatches(s[m(s).value..], m, rep)
    else [s[0]] + ReplaceMatches(s[1..], m, rep)
  }

  /** With no match at any position, the replacement leaves the text alone. */
  lemma {:induction false} ReplaceMatchesNone(s: string, m: string -> Option<nat>, rep: string)
    requires forall i | 0 <= i < |s| :: !MatchesAt(m, s[i..])
    ensures ReplaceMatches(s, m, rep) == s
    decreases |s|
  {
    if |s| > 0 {
      assert !MatchesAt(m, s[0..]) && s[0..] == s;
      assert forall i | 0 <= i < |s| - 1 :: s[1..][i..] == s[i + 1..];
      ReplaceMatchesNone(s[1..], m, rep);
      assert s == [s[0]] + s[1..];
    }
  }

  /** A prefix where no match starts comes through the replacement unchanged. */
  lemma {:induction false} ReplaceMatchesSkipsPrefix(pre: string, x: string, m: string -> Option<nat>, rep: string)
    requires forall i | 0 <= i < |pre| :: !MatchesAt(m, (pre + x)[i..])
    ensures ReplaceMatches(pre + x, m, rep) == pre + ReplaceMatches(x, m, rep)
    decreases |pre|
  {
    var s := pre + x;
    if |pre| > 0 {
      var rest := pre[1..] + x;
      assert s[1..] == rest;
      assert !MatchesAt(m, s) by { assert s[0..] == s; }
      forall i | 0 <= i < |pre| - 1
        ensures !MatchesAt(m, rest[i..])
      {
        assert rest[i..] == s[i + 1..];
      }
      ReplaceMatchesSkipsPrefix(pre[1..], x, m, rep);
      calc {
        ReplaceMatches(s, m, rep);
        [s[0]] + ReplaceMatches(rest, m, rep);
        [pre[0]] + (pre[1..] + ReplaceMatches(x, m, rep));
        { assert pre == [pre[0]] + pre[1..]; }
        pre + ReplaceMatches(x, m, rep);
      }
    } else {
      assert s == x;
    }
  }

  /** A match at the front is replaced, and the replacement carries on after it. */
  lemma ReplaceMatchesAtFront(x: string, m: string -> Option<nat>, rep: string)
    requires MatchesAt(m, x)
    ensures ReplaceMatches(x, m, rep) == rep + ReplaceMatches(x[m(x).value..], m, rep)
  {
  }

  /** The first position at or after `from` where `m` matches. */
  function FirstMatch(s: string, m: string -> Option<nat>, from: nat): (r: Option<nat>)
    ensures r.Some? ==> from <= r.value < |s| && MatchesAt(m, s[r.value..])
    ensures r.Some? ==> forall k | from <= k < r.value :: !MatchesAt(m, s[k..])
    ensures r.None? ==> forall k | from <= k < |s| :: !MatchesAt(m, s[k..])
    decreases |s| - from
  {
    if from >= |s| then None
    else if MatchesAt(m, s[from..]) then Some(from)
    else FirstMatch(s, m, from + 1)
  }

  /**
   * JavaScript's `split` with a regular expression that never matches the
   * empty string: the text between successive leftmost matches, including
   * the (possibly empty) pieces before the first and after the last.
   */
  function SplitMatches(s: string, m: string -> Option<nat>): (r: seq<string>)
    ensures |r| == |SplitSeparators(s, m)| + 1
    ensures Interleave(r, SplitSeparators(s, m)) == s
    ensures forall i | 0 <= i < |r| :: IsInfix(r[i], s)
    decreases |s|
  {
    match FirstMatch(s, m, 0)
    case None => InfixReflexive(s); [s]
    case Some(q) =>
      var e := q + m(s[q..]).value;
      var rest := SplitMatches(s[e..], m);
      assert s == s[..q] + s[q..e] + s[e..];
      assert ([s[..q]] + rest)[1..] == rest;
      InfixOfSlice(s, 0, q);
      assert forall i | 0 <= i < |rest| :: IsInfix(rest[i], s) by {
        InfixOfSlice(s, e, |s|);
        assert s[e..|s|] == s[e..];
        forall i | 0 <= i < |rest|
          ensures IsInfix(rest[i], s)
        {
          InfixTransitive(rest[i], s[e..], s);
        }
      }
      [s[..q]] + rest
  }

  /**
   * The separators a regex split drops, in order: each is the leftmost match
   * after the previous one, and none is empty.
   */
  function SplitSeparators(s: string, m: string -> Option<nat>): (r: seq<string>)
    ensures forall i | 0 <= i < |r| :: r[i] != ""
    decreases |s|
  {
    match FirstMatch(s, m, 0)
    case None => []
    case Some(q) =>
      var e := q + m(s[q..]).value;
      [s[q..e]] + SplitSeparators(s[e..], m)
  }

  /** The pieces with the separators put back between them: `pieces[0] + seps[0] + pieces[1] + …`. */
  function Interleave(pieces: seq<string>, seps: seq<string>): string
    requires |pieces| == |seps| + 1
    decreases |seps|
  {
    if |seps| == 0 then pieces[0] else pieces[0] + seps[0] + Interleave(pieces[1..], seps[1..])
  }

  /** Without a match the regex split is the whole text. */
  lemma SplitMatchesNone(s: string, m: string -> Option<nat>)
    requires FirstMatch(s, m, 0).None?
    ensures SplitMatches(s, m) == [s]
  {
  }

  /** The first piece of a regex split runs to the leftmost match; the rest is the split after it. */
  lemma SplitMatchesFirst(s: string, m: string -> Option<nat>, q: nat)
    requires FirstMatch(s, m, 0) == Some(q)
    ensures SplitMatches(s, m) == [s[..q]] + SplitMatches(s[q + m(s[q..]).value..], m)
  {
  }

  /**
   * The pieces of a Go `strings.TrimSpace` / JavaScript `trim()` pass that keeps
   * only non-blank pieces: each piece is trimmed and kept when non-empty,
   * in order.
   */
  function TrimmedNonBlank(d: Dialect, parts: seq<string>): (r: seq<string>)
    ensures |r| <= |parts|
    ensures forall i | 0 <= i < |r| :: r[i] != "" && IsTrimmed(d, r[i])
    ensures forall i | 0 <= i < |r| :: exists j | 0 <= j < |parts| :: IsInfix(r[i], parts[j])
    decreases |parts|
  {
    if |parts| == 0 then []
    else
      var t := Trim(d, parts[0]);
      var rest := TrimmedNonBlank(d, parts[1..]);
      TrimIsInfix(d, parts[0]);
      assert forall i | 0 <= i < |rest| :: exists j | 0 <= j < |parts| :: IsInfix(rest[i], parts[j]) by {
        forall i | 0 <= i < |rest|
          ensures exists j | 0 <= j < |parts| :: IsInfix(rest[i], parts[j])
        {
          var j :| 0 <= j < |parts| - 1 && IsInfix(rest[i], parts[1..][j]);
          assert parts[1..][j] == parts[j + 1];
        }
      }
      if t == "" then rest else [t] + rest
  }

  /** One step of the pass: the first piece, trimmed when non-empty, then the rest. */
  lemma TrimmedNonBlankCons(d: Dialect, parts: seq<string>)
    requires |parts| > 0
    ensures TrimmedNonBlank(d, parts)
            == (if Trim(d, parts[0]) == "" then [] else [Trim(d, parts[0])]) + TrimmedNonBlank(d, parts[1..])
  {
  }

  /** A substring that no piece contains is contained in no kept piece either. */
  lemma TrimmedNonBlankKeepsOut(d: Dialect, parts: seq<string>, w: string)
    requires forall i | 0 <= i < |parts| :: !Contains(parts[i], w)
    ensures forall i | 0 <= i < |TrimmedNonBlank(d, parts)| :: !Contains(TrimmedNonBlank(d, parts)[i], w)
  {
    var r := TrimmedNonBlank(d, parts);
    forall i | 0 <= i < |r|
      ensures !Contains(r[i], w)
    {
      var j :| 0 <= j < |parts| && IsInfix(r[i], parts[j]);
      NotContainsInfix(r[i], parts[j], w);
    }
  }

  /** Pieces that are already trimmed and non-empty pass through unchanged. */
  lemma {:induction false} TrimmedNonBlankKeeps(d: Dialect, parts: seq<string>)
    requires forall i | 0 <= i < |parts| :: parts[i] != "" && IsTrimmed(d, parts[i])
    ensures TrimmedNonBlank(d, parts) == parts
    decreases |parts|
  {
    if |parts| > 0 {
      TrimOfTrimmed(d, parts[0]);
      TrimmedNonBlankKeeps(d, parts[1..]);
    }
  }

  /** The last kept piece is the trimmed last piece, when that is not blank. */
  lemma {:induction false} TrimmedNonBlankLast(d: Dialect, parts: seq<string>)
    requires |parts| > 0 && Trim(d, Last(parts)) != ""
    ensures |TrimmedNonBlank(d, parts)| > 0 && Last(TrimmedNonBlank(d, parts)) == Trim(d, Last(parts))
    decreases |parts|
  {
    TrimmedNonBlankCons(d, parts);
    if |parts| > 1 {
      TrimmedNonBlankLast(d, parts[1..]);
      assert parts[1..][|parts| - 2] == parts[|parts| - 1];
    } else {
      assert parts[1..] == [];
    }
  }

  /** Only blank pieces produce nothing. */
  lemma {:induction false} TrimmedNonBlankEmpty(d: Dialect, parts: seq<string>)
    ensures TrimmedNonBlank(d, parts) == [] <==> forall i | 0 <= i < |parts| :: Blank(d, parts[i])
    decreases |parts|
  {
    if |parts| > 0 {
      TrimmedNonBlankEmpty(d, parts[1..]);
      assert forall i | 0 <= i < |parts| - 1 :: parts[1..][i] == parts[i + 1];
    }
  }
}

=== FILE: text.dfy ===
/**
 * Character classes and the string primitives both implementations lean on:
 * whitespace as Go and as JavaScript define it, trimming, substrings and
 * occurrences, and ASCII upper-casing.
 */
module Text {

  import Options

  /** Whose notion of whitespace a trim or a `\s` uses. */
  datatype Dialect = Go | Js

  /** Go's `unicode.IsSpace`, used by `strings.TrimSpace`. */
  predicate IsGoSpace(c: char) {
    c == '\t' || c == '\n' || c == '\U{B}' || c == '\U{C}' || c == '\r' || c == ' '
    || c == '\U{85}' || c == '\U{A0}' || c == '\U{1680}' || ('\U{2000}' <= c <= '\U{200A}')
    || c == '\U{2028}' || c == '\U{2029}' || c == '\U{202F}' || c == '\U{205F}' || c == '\U{3000}'
  }

  /** ECMAScript WhiteSpace and LineTerminator: the class of `\s` and of `String.prototype.trim`. */
  predicate IsJsSpace(c: char) {
    c == '\t' || c == '\n' || c == '\U{B}' || c == '\U{C}' || c == '\r' || c == ' '
    || c == '\U{A0}' || c == '\U{1680}' || ('\U{2000}' <= c <= '\U{200A}')
    || c == '\U{2028}' || c == '\U{2029}' || c == '\U{202F}' || c == '\U{205F}' || c == '\U{3000}'
    || c == '\U{FEFF}'
  }

  /**
   * The two whitespace sets agree on ASCII, where both are the space and
   * tab through carriage return, and differ in exactly two characters:
   * only Go counts NEL (U+0085) and only ECMAScript counts the byte-order
   * mark (U+FEFF).
   */
  lemma SpaceDialectsDiffer(c: char)
    ensures IsGoSpace(c) && !IsJsSpace(c) <==> c == '\U{85}'
    ensures IsJsSpace(c) && !IsGoSpace(c) <==> c == '\U{FEFF}'
    ensures c as int < 0x80 ==> (IsGoSpace(c) <==> c == ' ' || '\t' <= c <= '\r')
    ensures IsGoSpace('\U{A0}') && IsJsSpace('\U{A0}')
  {
  }

  predicate IsSpace(d: Dialect, c: char) {
    match d
    case Go => IsGoSpace(c)
    case Js => IsJsSpace(c)
  }

  /** The characters JavaScript's `.` refuses to match. */
  predicate IsLineTerminator(c: char) {
    c == '\n' || c == '\r' || c == '\U{2028}' || c == '\U{2029}'
  }

  predicate IsDigit(c: char) {
    '0' <= c <= '9'
  }

  /** Every character is whitespace (the empty string included). */
  predicate Blank(d: Dialect, s: string) {
    forall i | 0 <= i < |s| :: IsSpace(d, s[i])
  }

  /** Neither end is whitespace. */
  predicate IsTrimmed(d: Dialect, s: string) {
    |s| == 0 || (!IsSpace(d, s[0]) && !IsSpace(d, s[|s| - 1]))
  }

  /** The length of the whitespace run that starts `s`. */
  function LeadingSpaces(d: Dialect, s: string): (n: nat)
    ensures n <= |s|
    ensures forall i | 0 <= i < n :: IsSpace(d, s[i])
    ensures n < |s| ==> !IsSpace(d, s[n])
  {
    if |s| > 0 && IsSpace(d, s[0]) then 1 + LeadingSpaces(d, s[1..]) else 0
  }

  /** The length of the whitespace run that ends `s`. */
  function TrailingSpaces(d: Dialect, s: string): (n: nat)
    ensures n <= |s|
    ensures forall i | |s| - n <= i < |s| :: IsSpace(d, s[i])
    ensures n < |s| ==> !IsSpace(d, s[|s| - n - 1])
  {
    if |s| > 0 && IsSpace(d, s[|s| - 1]) then 1 + TrailingSpaces(d, s[..|s| - 1]) else 0
  }

  /**
   * Go's `strings.TrimSpace` (dialect Go) or JavaScript's `trim()` (dialect Js):
   * the result is `s` less a whitespace-only prefix and a whitespace-only
   * suffix, and starts and ends with non-whitespace.
   */
  function Trim(d: Dialect, s: string): (r: string)
    ensures IsTrimmed(d, r)
    ensures LeadingSpaces(d, s) + |r| <= |s|
    ensures r == s[LeadingSpaces(d, s)..LeadingSpaces(d, s) + |r|]
    ensures forall i | 0 <= i < LeadingSpaces(d, s) :: IsSpace(d, s[i])
    ensures forall i | LeadingSpaces(d, s) + |r| <= i < |s| :: IsSpace(d, s[i])
    ensures |r| == 0 <==> Blank(d, s)
  {
    var a := LeadingSpaces(d, s);
    var t := s[a..];
    var b := TrailingSpaces(d, t);
    t[..|t| - b]
  }

  /** `s` is non-empty and its last character is `c`. */
  predicate EndsWithChar(s: string, c: char) {
    |s| > 0 && s[|s| - 1] == c
  }

  /** A text ending in a non-whitespace character still ends with it once trimmed. */
  lemma TrimKeepsLastChar(d: Dialect, s: string, c: char)
    requires EndsWithChar(s, c) && !IsSpace(d, c)
    ensures EndsWithChar(Trim(d, s), c)
  {
    var r := Trim(d, s);
    var a := LeadingSpaces(d, s);
    assert !Blank(d, s);
    assert a + |r| == |s|;
    assert r[|r| - 1] == s[a + |r| - 1];
  }

  /** Trimming a trimmed string changes nothing. */
  lemma TrimOfTrimmed(d: Dialect, s: string)
    requires IsTrimmed(d, s)
    ensures Trim(d, s) == s
  {
    if |s| > 0 {
      assert LeadingSpaces(d, s) == 0;
      assert TrailingSpaces(d, s) == 0;
    }
  }

  /** A trimmed text with one space after it trims back to itself. */
  lemma TrimOfSpaceEnded(d: Dialect, v: string)
    requires v != "" && IsTrimmed(d, v)
    ensures Trim(d, v + " ") == v
  {
    var s := v + " ";
    assert s[0] == v[0];
    assert LeadingSpaces(d, s) == 0;
    assert s[..|s| - 1] == v;
    assert TrailingSpaces(d, v) == 0;
    assert TrailingSpaces(d, s) == 1;
  }

  lemma ConcatRegroup(x: string, y: string, z: string)
    ensures x + (y + z) == x + y + z
  {
  }

  /** The text around a tag, regrouped so that the tag starts the second part. */
  lemma TagShape(pre: string, inner: string, post: string)
    ensures pre + "<" + inner + ">" + post == pre + ("<" + inner + ">" + post)
  {
  }

  lemma TrimIdempotent(d: Dialect, s: string)
    ensures Trim(d, Trim(d, s)) == Trim(d, s)
  {
    TrimOfTrimmed(d, Trim(d, s));
  }

  /** `r` occurs in `s` starting at index `a`. */
  predicate InfixAt(r: string, s: string, a: int) {
    0 <= a && a + |r| <= |s| && r == s[a..a + |r|]
  }

  /** `r` occurs contiguously in `s`. */
  ghost predicate IsInfix(r: string, s: string) {
    exists a :: InfixAt(r, s, a)
  }

  lemma InfixOfSlice(s: string, a: nat, b: nat)
    requires a <= b <= |s|
    ensures IsInfix(s[a..b], s)
  {
    assert InfixAt(s[a..b], s, a);
  }

  lemma InfixReflexive(s: string)
    ensures IsInfix(s, s)
  {
    assert InfixAt(s, s, 0);
  }

  lemma InfixTransitive(r: string, s: string, t: string)
    requires IsInfix(r, s) && IsInfix(s, t)
    ensures IsInfix(r, t)
  {
    var a :| InfixAt(r, s, a);
    var b :| InfixAt(s, t, b);
    assert forall j | 0 <= j < |r| :: r[j] == s[a + j] == t[b + a + j];
    assert InfixAt(r, t, a + b);
  }

  lemma TrimIsInfix(d: Dialect, s: string)
    ensures IsInfix(Trim(d, s), s)
  {
    var a := LeadingSpaces(d, s);
    InfixOfSlice(s, a, a + |Trim(d, s)|);
  }

  /** `w` occurs in `s` starting at index `k`. */
  predicate OccursAt(s: string, w: string, k: int) {
    0 <= k && k + |w| <= |s| && s[k..k + |w|] == w
  }

  predicate Contains(s: string, w: string) {
    exists k | 0 <= k <= |s| - |w| :: OccursAt(s, w, k)
  }

  lemma ContainsSingle(s: string, c: char)
    ensures Contains(s, [c]) <==> c in s
  {
    if c in s {
      var k :| 0 <= k < |s| && s[k] == c;
      assert OccursAt(s, [c], k);
    }
    if Contains(s, [c]) {
      var k :| 0 <= k <= |s| - 1 && OccursAt(s, [c], k);
      assert s[k] == s[k..k + 1][0];
    }
  }

  /** A text missing one of the characters of `w` does not contain `w`. */
  lemma MissingCharNotContained(s: string, w: string, j: nat)
    requires j < |w| && w[j] !in s
    ensures !Contains(s, w)
  {
    forall k | 0 <= k <= |s| - |w|
      ensures !OccursAt(s, w, k)
    {
      assert s[k + j] in s;
      assert s[k..k + |w|][j] == s[k + j];
    }
  }

  /** A string free of `w` has every substring free of `w`. */
  lemma NotContainsInfix(r: string, s: string, w: string)
    requires IsInfix(r, s) && !Contains(s, w)
    ensures !Contains(r, w)
  {
    var a :| InfixAt(r, s, a);
    forall k | 0 <= k <= |r| - |w|
      ensures !OccursAt(r, w, k)
    {
      OccursInInfix(r, s, w, a, k);
    }
  }

  /** An occurrence inside an infix is an occurrence in the whole text. */
  lemma OccursInInfix(r: string, s: string, w: string, a: int, k: int)
    requires InfixAt(r, s, a) && 0 <= k <= |r| - |w|
    ensures OccursAt(r, w, k) ==> OccursAt(s, w, a + k)
  {
    if OccursAt(r, w, k) {
      forall j | 0 <= j < |w|
        ensures s[a + k..a + k + |w|][j] == w[j]
      {
        assert w[j] == r[k..k + |w|][j] == r[k + j];
        assert r[k + j] == s[a..a + |r|][k + j];
      }
    }
  }

  /** The first occurrence of `w` in `s` at or after `from`. */
  function IndexOf(s: string, w: string, from: nat): (r: Options.Option<nat>)
    ensures r.Some? ==> from <= r.value && OccursAt(s, w, r.value)
    ensures r.Some? ==> forall k | from <= k < r.value :: !OccursAt(s, w, k)
    ensures r.None? ==> forall k | from <= k :: !OccursAt(s, w, k)
    decreases |s| - from
  {
    if from + |w| > |s| then Options.None
    else if s[from..from + |w|] == w then Options.Some(from)
    else IndexOf(s, w, from + 1)
  }

  /** Case-insensitive comparison of ASCII letters; everything else compares exactly. */
  function LowerAscii(c: char): char {
    if 'A' <= c <= 'Z' then (c as int + 32) as char else c
  }

  predicate OccursAtIgnoringCase(s: string, w: string, k: int) {
    0 <= k && k + |w| <= |s| && forall i | 0 <= i < |w| :: LowerAscii(s[k + i]) == LowerAscii(w[i])
  }

  function UpperAscii(c: char): (u: char)
    ensures 'a' <= c <= 'z' ==> u as int == c as int - 32
    ensures !('a' <= c <= 'z') ==> u == c
  {
    if 'a' <= c <= 'z' then (c as int - 32) as char else c
  }

  /**
   * `strings.ToUpper` / `toUpperCase()` restricted to ASCII: letters a-z become
   * A-Z, every other character is kept.
   */
  function ToUpper(s: string): (r: string)
    ensures |r| == |s|
    ensures forall i | 0 <= i < |s| :: r[i] == UpperAscii(s[i])
    ensures forall i | 0 <= i < |r| :: !('a' <= r[i] <= 'z')
  {
    seq(|s|, i requires 0 <= i < |s| => UpperAscii(s[i]))
  }
}

=== FILE: ts_normalizer.dfy ===
/**
 * The TypeScript server's text handling (src/server.ts): `processBibleText`,
 * which turns scripture HTML into verses, and `removeHiddenSpan`, which drops
 * the presentation server's force-update marker. Every regular expression is
 * a hand-written matcher whose match at a given start position is unique,
 * applied by the global scan of `Rewrite`.
 */
module TsNormalizer {

  import opened Options
  import opened Text
  import opened Rewrite
  import opened Patterns

  /** `<[^>]*>` at the start of `t`: from `<` through the first later `>`. */
  function MatchAnyTag(t: string): (r: Option<nat>)
    ensures r.Some? <==> |t| >= 1 && t[0] == '<' && '>' in t[1..]
    ensures r.Some? ==> 2 <= r.value <= |t| && t[r.value - 1] == '>'
    ensures r.Some? ==> forall k | 1 <= k < r.value - 1 :: t[k] != '>'
  {
    if |t| >= 1 && t[0] == '<' then
      match IndexOf(t, ">", 1)
      case Some(k) =>
        assert t[k] == t[k..k + 1][0];
        assert forall j | 1 <= j < k :: t[j] != '>' by {
          forall j | 1 <= j < k
            ensures t[j] != '>'
          {
            assert !OccursAt(t, ">", j);
            assert t[j..j + 1] == [t[j]];
          }
        }
        Some(k + 1)
      case None =>
        assert '>' !in t[1..] by {
          forall j | 1 <= j < |t|
            ensures t[j] != '>'
          {
            assert !OccursAt(t, ">", j);
            assert t[j..j + 1] == [t[j]];
          }
        }
        None
    else None
  }

  /** `&nbsp;` at the start of `t`. */
  function MatchNbspEntity(t: string): (r: Option<nat>)
    ensures r.Some? <==> OccursAt(t, "&nbsp;", 0)
    ensures r.Some? ==> r.value == 6
  {
    Lit(t, 0, "&nbsp;")
  }

  /** `\s+` at the start of `t`: the whole whitespace run. */
  function MatchSpaceRun(t: string): (r: Option<nat>)
    ensures r.Some? <==> |t| > 0 && IsJsSpace(t[0])
    ensures r.Some? ==> 0 < r.value <= |t| && (r.value < |t| ==> !IsJsSpace(t[r.value]))
    ensures r.Some? ==> forall k | 0 <= k < r.value :: IsJsSpace(t[k])
  {
    Run1(t, 0, IsJsSpace)
  }

  /**
   * `\d+\.\s*` at the start of `t`: the whole digit run, a period, and the
   * whole whitespace run after it. It matches exactly when the digits that
   * start `t` are followed by a period, so wherever a digit is directly
   * followed by a period.
   */
  function MatchVerseNumber(t: string): (r: Option<nat>)
    ensures var d := RunEnd(t, 0, IsDigit);
            r.Some? <==> 0 < d < |t| && t[d] == '.'
    ensures var d := RunEnd(t, 0, IsDigit);
            r.Some? ==> 2 <= d + 1 <= r.value <= |t|
                        && (forall k | d + 1 <= k < r.value :: IsJsSpace(t[k]))
                        && (r.value < |t| ==> !IsJsSpace(t[r.value]))
    ensures |t| >= 2 && IsDigit(t[0]) && t[1] == '.' ==> r.Some?
  {
    var p1 :- Run1(t, 0, IsDigit);
    var p2 :- Lit(t, p1, ".");
    Some(RunEnd(t, p2, IsJsSpace))
  }

  /** A `<` is never followed, anywhere later, by a `>`. */
  predicate NoTagLeft(s: string) {
    forall i, j | 0 <= i < j < |s| :: !(s[i] == '<' && s[j] == '>')
  }

  /** No two whitespace characters are adjacent. */
  predicate NoDoubleSpace(s: string) {
    forall i | 0 <= i < |s| - 1 :: !(IsJsSpace(s[i]) && IsJsSpace(s[i + 1]))
  }

  /** No digit is directly followed by a period. */
  predicate NoDigitDot(s: string) {
    forall i | 0 <= i < |s| - 1 :: !(IsDigit(s[i]) && s[i + 1] == '.')
  }

  /**
   * src/server.ts:117: every `<…>` is removed (StripAnyTagsNoTagLeft,
   * AnyTagRemoved); text without `<` is kept as it is.
   */
  function StripAnyTags(s: string): (r: string)
    ensures |r| <= |s|
    ensures '<' !in s ==> r == s
  {
    NoAnyTagKept(s);
    ReplaceMatches(s, MatchAnyTag, "")
  }

  /**
   * src/server.ts:118: every `&nbsp;` becomes one space (NbspDecodedBetween);
   * nothing else is brought in, and text without `&` is kept as it is.
   */
  function DecodeNbsp(s: string): (r: string)
    ensures forall c | c in r :: c in s || c == ' '
    ensures '&' !in s ==> r == s
  {
    NoEntityKept(s);
    ReplaceMatches(s, MatchNbspEntity, " ")
  }

  /**
   * src/server.ts:119, before the trim: every whitespace run becomes one
   * space (CollapseNoDoubleSpace, CollapseKeepsSingleSpaces); text without
   * whitespace is kept as it is.
   */
  function CollapseSpaces(s: string): (r: string)
    ensures forall c | c in r :: c in s || c == ' '
    ensures (forall i | 0 <= i < |s| :: !IsJsSpace(s[i])) ==> r == s
  {
    NoSpaceKept(s);
    ReplaceMatches(s, MatchSpaceRun, " ")
  }

  lemma NoAnyTagKept(s: string)
    ensures '<' !in s ==> ReplaceMatches(s, MatchAnyTag, "") == s
  {
    if '<' !in s {
      NoAnyTagStartsIn(s, "");
      assert s + "" == s;
      ReplaceMatchesNone(s, MatchAnyTag, "");
    }
  }

  lemma NoEntityKept(s: string)
    ensures '&' !in s ==> ReplaceMatches(s, MatchNbspEntity, " ") == s
  {
    if '&' !in s {
      NoEntityStartsIn(s, "");
      assert s + "" == s;
      ReplaceMatchesNone(s, MatchNbspEntity, " ");
    }
  }

  lemma NoSpaceKept(s: string)
    ensures (forall i | 0 <= i < |s| :: !IsJsSpace(s[i])) ==> ReplaceMatches(s, MatchSpaceRun, " ") == s
  {
    if forall i | 0 <= i < |s| :: !IsJsSpace(s[i]) {
      forall i | 0 <= i < |s|
        ensures !MatchesAt(MatchSpaceRun, s[i..])
      {
        assert s[i..][0] == s[i];
      }
      ReplaceMatchesNone(s, MatchSpaceRun, " ");
    }
  }

  /** After stripping `<[^>]*>` no `<` has a `>` after it. */
  lemma {:induction false} StripAnyTagsNoTagLeft(s: string)
    ensures NoTagLeft(StripAnyTags(s))
    decreases |s|
  {
    if |s| > 0 {
      if MatchesAt(MatchAnyTag, s) {
        StripAnyTagsNoTagLeft(s[MatchAnyTag(s).value..]);
      } else {
        var tail := StripAnyTags(s[1..]);
        StripAnyTagsNoTagLeft(s[1..]);
        var r := StripAnyTags(s);
        assert r == [s[0]] + tail;
        if s[0] == '<' {
          assert '>' !in s[1..];
          assert '>' !in tail;
        }
        forall i, j | 0 <= i < j < |r|
          ensures !(r[i] == '<' && r[j] == '>')
        {
          assert r[j] == tail[j - 1];
          if i > 0 {
            assert r[i] == tail[i - 1];
          } else if r[i] == '<' {
            assert tail[j - 1] in tail;
          }
        }
      }
    }
  }

  /** A replacement that brings in no `<` or `>` keeps a text free of tags. */
  lemma {:induction false} ReplaceMatchesKeepsNoTagLeft(s: string, m: string -> Option<nat>, rep: string)
    requires '<' !in rep && '>' !in rep
    requires NoTagLeft(s)
    ensures NoTagLeft(ReplaceMatches(s, m, rep))
    decreases |s|
  {
    if |s| > 0 {
      var e := if MatchesAt(m, s) then m(s).value else 1;
      var head := if MatchesAt(m, s) then rep else [s[0]];
      assert NoTagLeft(s[e..]) by {
        forall i, j | 0 <= i < j < |s[e..]|
          ensures !(s[e..][i] == '<' && s[e..][j] == '>')
        {
          assert s[e..][i] == s[e + i] && s[e..][j] == s[e + j];
        }
      }
      ReplaceMatchesKeepsNoTagLeft(s[e..], m, rep);
      var tail := ReplaceMatches(s[e..], m, rep);
      var r := ReplaceMatches(s, m, rep);
      assert r == head + tail;
      if '<' in head {
        assert head == [s[0]] && s[0] == '<' && e == 1;
        forall c | c in tail
          ensures c != '>'
        {
          if c in s[1..] {
            var j :| 1 <= j < |s| && s[j] == c;
            assert !(s[0] == '<' && s[j] == '>');
          }
        }
      }
      forall i, j | 0 <= i < j < |r|
        ensures !(r[i] == '<' && r[j] == '>')
      {
        if i >= |head| {
          assert r[i] == tail[i - |head|] && r[j] == tail[j - |head|];
        } else if j >= |head| {
          assert r[j] == tail[j - |head|];
          assert r[j] in tail;
          if r[i] == '<' {
            assert r[i] in head;
          }
        } else {
          assert r[i] in head && r[j] in head;
        }
      }
    }
  }

  /** A text starting with a non-space character keeps it in front after collapsing. */
  lemma CollapseKeepsFirst(t: string)
    requires |t| > 0 && !IsJsSpace(t[0])
    ensures |CollapseSpaces(t)| > 0 && CollapseSpaces(t)[0] == t[0]
  {
    assert !MatchesAt(MatchSpaceRun, t);
    assert CollapseSpaces(t) == [t[0]] + CollapseSpaces(t[1..]);
  }

  /** Collapsing leaves no two adjacent whitespace characters. */
  lemma {:induction false} CollapseNoDoubleSpace(s: string)
    ensures NoDoubleSpace(CollapseSpaces(s))
    decreases |s|
  {
    if |s| > 0 {
      var r := CollapseSpaces(s);
      if MatchesAt(MatchSpaceRun, s) {
        var e := MatchSpaceRun(s).value;
        var tail := CollapseSpaces(s[e..]);
        CollapseNoDoubleSpace(s[e..]);
        assert r == " " + tail;
        if e < |s| {
          CollapseKeepsFirst(s[e..]);
        }
        forall i | 0 <= i < |r| - 1
          ensures !(IsJsSpace(r[i]) && IsJsSpace(r[i + 1]))
        {
          if i > 0 {
            assert r[i] == tail[i - 1] && r[i + 1] == tail[i];
          }
        }
      } else {
        var tail := CollapseSpaces(s[1..]);
        CollapseNoDoubleSpace(s[1..]);
        assert r == [s[0]] + tail;
        forall i | 0 <= i < |r| - 1
          ensures !(IsJsSpace(r[i]) && IsJsSpace(r[i + 1]))
        {
          if i > 0 {
            assert r[i] == tail[i - 1] && r[i + 1] == tail[i];
          }
        }
      }
    }
  }

  /** Each of the three properties carries over to every substring. */
  lemma InfixKeepsProperties(r: string, s: string)
    requires IsInfix(r, s)
    ensures NoTagLeft(s) ==> NoTagLeft(r)
    ensures NoDoubleSpace(s) ==> NoDoubleSpace(r)
    ensures NoDigitDot(s) ==> NoDigitDot(r)
  {
    var a :| InfixAt(r, s, a);
    assert forall i | 0 <= i < |r| :: r[i] == s[a + i];
  }

  /** `\s*\(.*?\)\s*$` matches at position `i` of `s`. */
  predicate ParenTailAt(s: string, i: nat)
    requires i <= |s|
  {
    var p := RunEnd(s, i, IsJsSpace);
    var e := |s| - TrailingSpaces(Js, s);
    p + 1 < e && s[p] == '(' && s[e - 1] == ')' && forall k | p < k < e - 1 :: !IsLineTerminator(s[k])
  }

  /** The leftmost position at or after `i` where the parenthesised tail matches. */
  function FirstParenTail(s: string, i: nat): (r: Option<nat>)
    requires i <= |s|
    ensures r.Some? ==> i <= r.value <= |s| && ParenTailAt(s, r.value)
    ensures r.Some? ==> forall k | i <= k < r.value :: !ParenTailAt(s, k)
    ensures r.None? ==> forall k | i <= k <= |s| :: !ParenTailAt(s, k)
    decreases |s| - i
  {
    if ParenTailAt(s, i) then Some(i)
    else if i == |s| then None
    else FirstParenTail(s, i + 1)
  }

  /**
   * src/server.ts:120: `replace(/\s*\(.*?\)\s*$/, '')`, not global. The
   * leftmost match wins, so everything from the first `(` whose text runs
   * (without a line break) to a final `)` is removed, together with the
   * whitespace before it: the result is a prefix of the text.
   */
  function DropParenTail(s: string): (r: string)
    ensures |r| <= |s| && r == s[..|r|]
    ensures r != s ==> ParenTailAt(s, |r|) && forall k | 0 <= k < |r| :: !ParenTailAt(s, k)
    ensures r == s ==> forall k | 0 <= k < |s| :: !ParenTailAt(s, k)
    ensures '(' !in s ==> r == s
  {
    match FirstParenTail(s, 0)
    case Some(i) =>
      assert s[RunEnd(s, i, IsJsSpace)] == '(';
      s[..i]
    case None => s
  }

  /**
   * The leftmost match starts at the first parenthesis, so an earlier
   * parenthetical takes the rest of the verse with it, not only the final
   * reference.
   */
  lemma ParenTailFromFirstParen()
    ensures DropParenTail("a (b) c (d)") == "a"
  {
    var s := "a (b) c (d)";
    NoParenTailAtStart();
    ParenTailAtFirstSpace();
    assert FirstParenTail(s, 1) == Some(1);
    assert FirstParenTail(s, 0) == Some(1);
  }

  lemma NoParenTailAtStart()
    ensures !ParenTailAt("a (b) c (d)", 0)
  {
    var s := "a (b) c (d)";
    assert RunEnd(s, 0, IsJsSpace) == 0;
  }

  lemma ParenTailAtFirstSpace()
    ensures ParenTailAt("a (b) c (d)", 1)
  {
    var s := "a (b) c (d)";
    assert RunEnd(s, 2, IsJsSpace) == 2;
    assert RunEnd(s, 1, IsJsSpace) == 2;
    assert TrailingSpaces(Js, s) == 0;
  }

  /** src/server.ts:121, the split: cut at every verse number (digits, a period, the whitespace after). */
  function SplitVerses(s: string): (r: seq<string>)
    ensures |r| >= 1
    ensures forall i | 0 <= i < |r| :: IsInfix(r[i], s)
    ensures |r| == |SplitSeparators(s, MatchVerseNumber)| + 1
    ensures Interleave(r, SplitSeparators(s, MatchVerseNumber)) == s
  {
    SplitMatches(s, MatchVerseNumber)
  }

  /** Text before the first verse number holds no digit followed by a period. */
  lemma NoVerseNumberBefore(s: string, q: nat)
    requires q <= |s|
    requires forall k | 0 <= k < q :: !MatchesAt(MatchVerseNumber, s[k..])
    ensures NoDigitDot(s[..q])
  {
    forall k | 0 <= k < q - 1
      ensures !(IsDigit(s[..q][k]) && s[..q][k + 1] == '.')
    {
      assert !MatchesAt(MatchVerseNumber, s[k..]);
      assert s[k..][0] == s[k] && s[k..][1] == s[k + 1];
    }
  }

  /** No piece of the verse split holds a digit followed by a period: those are where it cuts. */
  lemma {:induction false} SplitVersesNoDigitDot(s: string)
    ensures forall i | 0 <= i < |SplitVerses(s)| :: NoDigitDot(SplitVerses(s)[i])
    decreases |s|
  {
    match FirstMatch(s, MatchVerseNumber, 0)
    case None =>
      SplitMatchesNone(s, MatchVerseNumber);
      NoVerseNumberBefore(s, |s|);
      assert s[..|s|] == s;
    case Some(q) =>
      var e := q + MatchVerseNumber(s[q..]).value;
      SplitVersesNoDigitDot(s[e..]);
      SplitMatchesFirst(s, MatchVerseNumber, q);
      NoVerseNumberBefore(s, q);
      NoDigitDotCons(s[..q], SplitVerses(s[e..]));
  }

  /** A text with no digit directly followed by a period holds no verse number. */
  lemma NoVerseNumberIn(s: string)
    requires NoDigitDot(s)
    ensures FirstMatch(s, MatchVerseNumber, 0).None?
  {
    forall k | 0 <= k < |s|
      ensures !MatchesAt(MatchVerseNumber, s[k..])
    {
      VerseNumberAt(s, k);
    }
  }

  /** A verse number at `k` begins with a digit that is directly followed by a period. */
  lemma VerseNumberAt(s: string, k: nat)
    requires k < |s|
    ensures MatchesAt(MatchVerseNumber, s[k..]) ==> exists j | k <= j < |s| - 1 :: IsDigit(s[j]) && s[j + 1] == '.'
  {
    var t := s[k..];
    var d := RunEnd(t, 0, IsDigit);
    if 0 < d < |t| {
      assert s[k + d - 1] == t[d - 1] && s[k + d] == t[d];
    }
  }

  lemma NoDigitDotCons(first: string, rest: seq<string>)
    requires NoDigitDot(first)
    requires forall i | 0 <= i < |rest| :: NoDigitDot(rest[i])
    ensures forall i | 0 <= i < |rest| + 1 :: NoDigitDot(([first] + rest)[i])
  {
    forall i | 0 <= i < |rest| + 1
      ensures NoDigitDot(([first] + rest)[i])
    {
      if i > 0 {
        assert ([first] + rest)[i] == rest[i - 1];
      }
    }
  }

  /**
   * src/server.ts:117-119: tags removed, `&nbsp;` decoded, whitespace runs
   * collapsed and the ends trimmed. The result has no tag left and no
   * doubled whitespace.
   */
  function FlattenScripture(text: string): (r: string)
    ensures NoTagLeft(r) && NoDoubleSpace(r) && IsTrimmed(Js, r)
  {
    var t1 := StripAnyTags(text);
    var t2 := DecodeNbsp(t1);
    var t3 := CollapseSpaces(t2);
    var r := Trim(Js, t3);
    assert NoTagLeft(t3) by {
      StripAnyTagsNoTagLeft(text);
      ReplaceMatchesKeepsNoTagLeft(t1, MatchNbspEntity, " ");
      ReplaceMatchesKeepsNoTagLeft(t2, MatchSpaceRun, " ");
    }
    CollapseNoDoubleSpace(t2);
    TrimIsInfix(Js, t3);
    InfixKeepsProperties(r, t3);
    r
  }

  /**
   * A tag `<inner>` is removed: text before it that holds no `<` is kept as
   * it is, and the stripping carries on after the tag.
   */
  lemma AnyTagRemoved(pre: string, inner: string, post: string)
    requires '<' !in pre && '>' !in inner
    ensures StripAnyTags(pre + "<" + inner + ">" + post) == pre + StripAnyTags(post)
  {
    var t := "<" + inner + ">" + post;
    NoAnyTagStartsIn(pre, t);
    ReplaceMatchesSkipsPrefix(pre, t, MatchAnyTag, "");
    AnyTagAtFront(inner, post);
    TagShape(pre, inner, post);
  }

  /** No tag starts inside a text without `<`. */
  lemma NoAnyTagStartsIn(pre: string, x: string)
    requires '<' !in pre
    ensures forall i | 0 <= i < |pre| :: !MatchesAt(MatchAnyTag, (pre + x)[i..])
  {
    forall i | 0 <= i < |pre|
      ensures !MatchesAt(MatchAnyTag, (pre + x)[i..])
    {
      assert (pre + x)[i..][0] == pre[i];
    }
  }

  /** A whole tag at the front is removed. */
  lemma AnyTagAtFront(inner: string, post: string)
    requires '>' !in inner
    ensures StripAnyTags("<" + inner + ">" + post) == StripAnyTags(post)
  {
    var t := "<" + inner + ">" + post;
    var n := |inner| + 2;
    assert t[n - 1] == '>' && '>' in t[1..];
    assert forall k | 1 <= k < n - 1 :: t[k] == inner[k - 1];
    assert MatchAnyTag(t).value == n;
    ReplaceMatchesAtFront(t, MatchAnyTag, "");
    assert t[n..] == post;
  }

  /** A tag after text without `<` makes no difference to the flattened text. */
  lemma FlattenDropsTag(pre: string, inner: string, post: string)
    requires '<' !in pre && '>' !in inner
    ensures FlattenScripture(pre + "<" + inner + ">" + post) == FlattenScripture(pre + post)
  {
    AnyTagRemoved(pre, inner, post);
    NoAnyTagStartsIn(pre, post);
    ReplaceMatchesSkipsPrefix(pre, post, MatchAnyTag, "");
    assert StripAnyTags(pre + "<" + inner + ">" + post) == StripAnyTags(pre + post);
  }

  /** Words of an already flat line: no tag or entity, lone `' '` spaces, trimmed, non-empty. */
  predicate FlatLine(s: string) {
    s != "" && '<' !in s && '&' !in s && IsTrimmed(Js, s) && NoDoubleSpace(s)
    && forall i | 0 <= i < |s| :: IsJsSpace(s[i]) ==> s[i] == ' '
  }

  /**
   * Two flat lines, the first in a tag and the second after a closing tag, an
   * `&nbsp;` and a space, flatten to the two lines with a single space
   * between them: the tags go, the entity is decoded, and the two spaces
   * collapse into one.
   */
  lemma TaggedWordsFlattened(t: string, a: string, u: string, b: string)
    requires '>' !in t && '>' !in u
    requires FlatLine(a) && FlatLine(b)
    ensures FlattenScripture("<" + t + ">" + a + "<" + u + ">" + "&nbsp; " + b) == a + " " + b
  {
    var c := "&nbsp; " + b;
    TagsAroundDropped(t, a, u, c);
    ConcatRegroup("<" + t + ">" + a + "<" + u + ">", "&nbsp; ", b);
    ConcatRegroup(a, "&nbsp; ", b);
    NbspBetweenWords(a, b);
  }

  /** A tag before a text without `<` and a tag after it are both dropped. */
  lemma TagsAroundDropped(t: string, a: string, u: string, c: string)
    requires '>' !in t && '>' !in u && '<' !in a
    ensures FlattenScripture("<" + t + ">" + a + "<" + u + ">" + c) == FlattenScripture(a + c)
  {
    var rest := a + "<" + u + ">" + c;
    assert "" + "<" + t + ">" + rest == "<" + t + ">" + a + "<" + u + ">" + c;
    assert "" + rest == rest;
    FlattenDropsTag("", t, rest);
    FlattenDropsTag(a, u, c);
  }

  /** An `&nbsp;` and a space between two flat lines become one space. */
  lemma NbspBetweenWords(a: string, b: string)
    requires FlatLine(a) && FlatLine(b)
    ensures FlattenScripture(a + "&nbsp; " + b) == a + " " + b
  {
    var s0 := a + "&nbsp; " + b;
    assert '<' !in s0;
    NbspDecodedBetween(a, b);
    CollapseAfterFlat(a, "  " + b);
    SpacePairCollapsed(b);
    assert a + ("  " + b) == a + "  " + b && a + (" " + b) == a + " " + b;
    TrimOfTrimmed(Js, a + " " + b);
  }

  /** Decoding turns the entity into a space and touches nothing else. */
  lemma NbspDecodedBetween(a: string, b: string)
    requires '&' !in a && '&' !in b
    ensures DecodeNbsp(a + "&nbsp; " + b) == a + "  " + b
  {
    var x := "&nbsp; " + b;
    NbspDecodedAtFront(b);
    NoEntityStartsIn(a, x);
    ReplaceMatchesSkipsPrefix(a, x, MatchNbspEntity, " ");
    ConcatRegroup(a, "&nbsp; ", b);
    ConcatRegroup(a, "  ", b);
  }

  /** An entity in front becomes a space; the `&`-free rest is kept. */
  lemma NbspDecodedAtFront(b: string)
    requires '&' !in b
    ensures DecodeNbsp("&nbsp; " + b) == "  " + b
  {
    var x := "&nbsp; " + b;
    assert MatchNbspEntity(x) == Some(6) && x[6..] == " " + b;
    ReplaceMatchesAtFront(x, MatchNbspEntity, " ");
    NoEntityStartsIn(" " + b, "");
    assert " " + b + "" == " " + b;
    ReplaceMatchesNone(" " + b, MatchNbspEntity, " ");
    assert " " + (" " + b) == "  " + b;
  }

  /** No `&nbsp;` starts inside a text without `&`. */
  lemma NoEntityStartsIn(pre: string, x: string)
    requires '&' !in pre
    ensures forall i | 0 <= i < |pre| :: !MatchesAt(MatchNbspEntity, (pre + x)[i..])
  {
    forall i | 0 <= i < |pre|
      ensures !MatchesAt(MatchNbspEntity, (pre + x)[i..])
    {
      assert (pre + x)[i..][0] == pre[i];
    }
  }

  /** Collapsing keeps a flat line that ends in a non-space and carries on after it. */
  lemma {:induction false} CollapseAfterFlat(a: string, x: string)
    requires a != "" && !IsJsSpace(a[|a| - 1]) && NoDoubleSpace(a)
    requires forall i | 0 <= i < |a| :: IsJsSpace(a[i]) ==> a[i] == ' '
    ensures CollapseSpaces(a + x) == a + CollapseSpaces(x)
    decreases |a|
  {
    var s := a + x;
    assert s[0] == a[0];
    if |a| == 1 {
      assert s[1..] == x;
    } else {
      var a' := a[1..];
      assert NoDoubleSpace(a') by {
        forall i | 0 <= i < |a'| - 1
          ensures !(IsJsSpace(a'[i]) && IsJsSpace(a'[i + 1]))
        {
          assert a'[i] == a[i + 1] && a'[i + 1] == a[i + 2];
        }
      }
      CollapseAfterFlat(a', x);
      assert s[1..] == a' + x;
      if IsJsSpace(a[0]) {
        assert s[1] == a[1];
        assert MatchSpaceRun(s) == Some(1);
      }
      assert a == [a[0]] + a';
    }
  }

  /** Two spaces before a flat line collapse into one. */
  lemma SpacePairCollapsed(b: string)
    requires FlatLine(b)
    ensures CollapseSpaces("  " + b) == " " + b
  {
    var s := "  " + b;
    assert s[2] == b[0];
    assert MatchSpaceRun(s) == Some(2);
    assert s[2..] == b;
    CollapseKeepsSingleSpaces(b);
  }

  /**
   * src/server.ts:116-123: `processBibleText`. Every verse is non-empty and
   * trimmed, holds no tag, no doubled whitespace, and no digit directly
   * followed by a period.
   */
  function ProcessBibleText(text: string): (r: seq<string>)
    ensures forall i | 0 <= i < |r| :: r[i] != "" && IsTrimmed(Js, r[i])
    ensures forall i | 0 <= i < |r| :: NoTagLeft(r[i]) && NoDoubleSpace(r[i]) && NoDigitDot(r[i])
  {
    var flat := FlattenScripture(text);
    var body := DropParenTail(flat);
    var parts := SplitVerses(body);
    var r := TrimmedNonBlank(Js, parts);
    assert forall i | 0 <= i < |r| :: NoTagLeft(r[i]) && NoDoubleSpace(r[i]) && NoDigitDot(r[i]) by {
      InfixOfSlice(flat, 0, |body|);
      assert flat[0..|body|] == body;
      SplitVersesNoDigitDot(body);
      forall i | 0 <= i < |r|
        ensures NoTagLeft(r[i]) && NoDoubleSpace(r[i]) && NoDigitDot(r[i])
      {
        var j :| 0 <= j < |parts| && IsInfix(r[i], parts[j]);
        InfixTransitive(parts[j], body, flat);
        InfixKeepsProperties(parts[j], flat);
        InfixKeepsProperties(r[i], parts[j]);
      }
    }
    r
  }

  /**
   * A scripture text that flattens to one non-empty line with no
   * parenthesis and no verse number is that one verse.
   */
  lemma SingleVerse(text: string)
    requires var f := FlattenScripture(text); f != "" && '(' !in f && NoDigitDot(f)
    ensures ProcessBibleText(text) == [FlattenScripture(text)]
  {
    var f := FlattenScripture(text);
    NoVerseNumberIn(f);
    SplitMatchesNone(f, MatchVerseNumber);
    TrimmedNonBlankKeeps(Js, [f]);
  }

  /**
   * A text that is already flat (no tag, no `&nbsp;`, single spaces only,
   * trimmed) comes through the flattening unchanged.
   */
  lemma FlatTextUnchanged(text: string)
    requires NoTagLeft(text) && !Contains(text, "&nbsp;")
    requires forall i | 0 <= i < |text| :: IsJsSpace(text[i]) ==> text[i] == ' '
    requires NoDoubleSpace(text) && IsTrimmed(Js, text)
    ensures FlattenScripture(text) == text
  {
    forall i | 0 <= i < |text|
      ensures !MatchesAt(MatchAnyTag, text[i..]) && !MatchesAt(MatchNbspEntity, text[i..])
    {
      TagOrEntityAt(text, i);
    }
    ReplaceMatchesNone(text, MatchAnyTag, "");
    ReplaceMatchesNone(text, MatchNbspEntity, " ");
    CollapseKeepsSingleSpaces(text);
    TrimOfTrimmed(Js, text);
  }

  /** A tag match at `i` starts a `<` with a later `>`; an entity match at `i` is an `&nbsp;` there. */
  lemma TagOrEntityAt(text: string, i: nat)
    requires i < |text|
    ensures MatchesAt(MatchAnyTag, text[i..]) ==> exists j | i < j < |text| :: text[i] == '<' && text[j] == '>'
    ensures MatchesAt(MatchNbspEntity, text[i..]) ==> OccursAt(text, "&nbsp;", i)
  {
    var t := text[i..];
    assert text[i] == t[0];
    if MatchesAt(MatchAnyTag, t) {
      var j :| 1 <= j < |t| && t[j] == '>';
      assert text[i + j] == t[j];
    }
    if MatchesAt(MatchNbspEntity, t) {
      assert t[..6] == text[i..i + 6];
    }
  }

  /** Collapsing changes nothing when every whitespace is a lone `' '`. */
  lemma {:induction false} CollapseKeepsSingleSpaces(s: string)
    requires forall i | 0 <= i < |s| :: IsJsSpace(s[i]) ==> s[i] == ' '
    requires NoDoubleSpace(s)
    ensures CollapseSpaces(s) == s
    decreases |s|
  {
    if |s| > 0 {
      assert NoDoubleSpace(s[1..]) by {
        forall i | 0 <= i < |s| - 2
          ensures !(IsJsSpace(s[1..][i]) && IsJsSpace(s[1..][i + 1]))
        {
          assert s[1..][i] == s[i + 1] && s[1..][i + 1] == s[i + 2];
        }
      }
      CollapseKeepsSingleSpaces(s[1..]);
      if IsJsSpace(s[0]) {
        assert MatchSpaceRun(s) == Some(1);
        assert s[1..] == s[MatchSpaceRun(s).value..];
      }
      assert s == [s[0]] + s[1..];
    }
  }

  /** The `id` attribute of the marker, `id=` and a quoted `text-force-update_0`, at index `k`. */
  predicate IdTokenAt(t: string, k: nat) {
    k + 24 <= |t|
    && OccursAtIgnoringCase(t, "id=", k)
    && IsQuote(t[k + 3])
    && OccursAtIgnoringCase(t, "text-force-update_0", k + 4)
    && IsQuote(t[k + 23])
  }

  /** The first index at or after `from` where `</span>` starts or a line ends. */
  function SpanCloseOrBreak(t: string, from: nat): (r: Option<nat>)
    ensures r.Some? ==> from <= r.value < |t|
    ensures r.Some? ==> OccursAtIgnoringCase(t, "</span>", r.value) || IsLineTerminator(t[r.value])
    ensures r.Some? ==> forall k | from <= k < r.value :: !OccursAtIgnoringCase(t, "</span>", k) && !IsLineTerminator(t[k])
    decreases |t| - from
  {
    if from >= |t| then None
    else if OccursAtIgnoringCase(t, "</span>", from) || IsLineTerminator(t[from]) then Some(from)
    else SpanCloseOrBreak(t, from + 1)
  }

  /**
   * `<span[^>]*id=["']text-force-update_0["'][^>]*>.*?<\/span>` with the `i`
   * flag, at the start of `t`. Neither `[^>]*` can pass a `>`, so the opening
   * tag ends at the first `>` and must hold the id; the lazy `.*?` then
   * reaches the first `</span>` unless a line ends before it.
   */
  function MatchHiddenSpan(t: string): (r: Option<nat>)
    ensures r.Some? ==> OccursAtIgnoringCase(t, "<span", 0) && 0 < r.value <= |t|
  {
    if !OccursAtIgnoringCase(t, "<span", 0) then None
    else
      match IndexOf(t, ">", 5)
      case None => None
      case Some(g) =>
        if !(exists k | 5 <= k <= g - 24 :: IdTokenAt(t, k)) then None
        else
          match SpanCloseOrBreak(t, g + 1)
          case Some(m) => if OccursAtIgnoringCase(t, "</span>", m) then Some(m + 7) else None
          case None => None
  }

  /** No case-insensitive `<span` anywhere in `s`. */
  predicate NoSpanOpening(s: string) {
    forall k | 0 <= k < |s| :: !OccursAtIgnoringCase(s, "<span", k)
  }

  /** src/server.ts:199-201: `removeHiddenSpan`. Text without any `<span` is returned as it is. */
  function RemoveHiddenSpan(text: string): (r: string)
    ensures |r| <= |text|
    ensures NoSpanOpening(text) ==> r == text
  {
    var r := ReplaceMatches(text, MatchHiddenSpan, "");
    assert NoSpanOpening(text) ==> r == text by {
      if NoSpanOpening(text) {
        forall i | 0 <= i < |text|
          ensures !MatchesAt(MatchHiddenSpan, text[i..])
        {
          if MatchHiddenSpan(text[i..]).Some? {
            assert OccursAtIgnoringCase(text, "<span", i) by {
              forall j | 0 <= j < 5
                ensures LowerAscii(text[i + j]) == LowerAscii("<span"[j])
              {
                assert text[i..][j] == text[i + j];
              }
            }
          }
        }
        ReplaceMatchesNone(text, MatchHiddenSpan, "");
      }
    }
    r
  }

  /** A verse number: one or more digits. */
  predicate Digits(n: string) {
    n != "" && forall k | 0 <= k < |n| :: IsDigit(n[k])
  }

  /**
   * Two verses numbered `n1` and `n2`, followed by a parenthesised
   * reference, give exactly the two verse texts: the reference is dropped
   * with the space before it, the cut at each verse number removes the
   * number, its period and the space after it, and the empty text before the
   * first number is not kept.
   */
  lemma TwoVersesWithReference(text: string, n1: string, v1: string, n2: string, v2: string, ref: string)
    requires FlattenScripture(text) == n1 + ". " + v1 + " " + n2 + ". " + v2 + " (" + ref + ")"
    requires Digits(n1) && Digits(n2)
    requires v1 != "" && IsTrimmed(Js, v1) && '(' !in v1 && NoDigitDot(v1)
    requires v2 != "" && IsTrimmed(Js, v2) && '(' !in v2 && NoDigitDot(v2)
    requires forall k | 0 <= k < |ref| :: !IsLineTerminator(ref[k])
    ensures ProcessBibleText(text) == [v1, v2]
  {
    var body := n1 + ". " + (v1 + " " + n2 + ". " + v2);
    TwoVersesBody(n1, v1, n2, v2, ref);
    ReferenceDropped(body, ref);
    TwoVersesSplit(n1, v1, n2, v2);
    TwoVersesKept(v1, v2);
  }

  /** The pieces of the split, trimmed and with the empty one left out, are the two verses. */
  lemma TwoVersesKept(v1: string, v2: string)
    requires v1 != "" && IsTrimmed(Js, v1) && v2 != "" && IsTrimmed(Js, v2)
    ensures TrimmedNonBlank(Js, ["", v1 + " ", v2]) == [v1, v2]
  {
    TrimOfSpaceEnded(Js, v1);
    TrimOfTrimmed(Js, v2);
    TrimmedNonBlankCons(Js, ["", v1 + " ", v2]);
    TrimmedNonBlankCons(Js, [v1 + " ", v2]);
    TrimmedNonBlankCons(Js, [v2]);
    assert ["", v1 + " ", v2][1..] == [v1 + " ", v2];
    assert [v1 + " ", v2][1..] == [v2];
  }

  /** The text before the reference has no `(` and ends in a non-space. */
  lemma TwoVersesBody(n1: string, v1: string, n2: string, v2: string, ref: string)
    requires Digits(n1) && Digits(n2)
    requires v1 != "" && '(' !in v1 && v2 != "" && '(' !in v2 && IsTrimmed(Js, v2)
    ensures var body := n1 + ". " + (v1 + " " + n2 + ". " + v2);
            '(' !in body && |body| > 0 && !IsJsSpace(body[|body| - 1])
            && body + " (" + ref + ")" == n1 + ". " + v1 + " " + n2 + ". " + v2 + " (" + ref + ")"
  {
    var body := n1 + ". " + (v1 + " " + n2 + ". " + v2);
    assert body[|body| - 1] == v2[|v2| - 1];
    assert forall k | 0 <= k < |n1| :: n1[k] != '(';
    assert forall k | 0 <= k < |n2| :: n2[k] != '(';
  }

  /** The verse split of two numbered verses: an empty first piece, the first verse with its trailing space, the second verse. */
  lemma TwoVersesSplit(n1: string, v1: string, n2: string, v2: string)
    requires Digits(n1) && Digits(n2)
    requires v1 != "" && IsTrimmed(Js, v1) && NoDigitDot(v1)
    requires NoDigitDot(v2) && (|v2| > 0 ==> !IsJsSpace(v2[0]))
    ensures SplitVerses(n1 + ". " + (v1 + " " + n2 + ". " + v2)) == ["", v1 + " ", v2]
  {
    var second := v1 + " " + n2 + ". " + v2;
    assert second[0] == v1[0];
    LeadingVerseNumberSplit(n1, second);
    SecondVerseSplit(v1, n2, v2);
  }

  /** A text that starts with a verse number splits into an empty piece and the split of the rest. */
  lemma LeadingVerseNumberSplit(n: string, b: string)
    requires Digits(n) && (|b| > 0 ==> !IsJsSpace(b[0]))
    ensures SplitVerses(n + ". " + b) == [""] + SplitVerses(b)
  {
    var s := n + ". " + b;
    VerseNumberAtDigits(n, b);
    assert s[0..] == s;
    assert FirstMatch(s, MatchVerseNumber, 0) == Some(0);
    SplitMatchesFirst(s, MatchVerseNumber, 0);
    assert s[|n| + 2..] == b;
  }

  /** The split after the first verse number: the first verse with its space, then the second. */
  lemma SecondVerseSplit(v1: string, n2: string, v2: string)
    requires Digits(n2)
    requires v1 != "" && IsTrimmed(Js, v1) && NoDigitDot(v1)
    requires NoDigitDot(v2) && (|v2| > 0 ==> !IsJsSpace(v2[0]))
    ensures SplitVerses(v1 + " " + n2 + ". " + v2) == [v1 + " ", v2]
  {
    NoDigitDotSpaceAfter(v1);
    VerseNumberSplit(v1 + " ", n2, v2);
    NoVerseNumberIn(v2);
    SplitMatchesNone(v2, MatchVerseNumber);
  }

  /** A space after a text adds no digit-period pair. */
  lemma NoDigitDotSpaceAfter(v: string)
    requires NoDigitDot(v)
    ensures NoDigitDot(v + " ")
  {
    var a := v + " ";
    forall i | 0 <= i < |a| - 1
      ensures !(IsDigit(a[i]) && a[i + 1] == '.')
    {
      assert a[i] == v[i];
      assert i + 1 < |v| ==> a[i + 1] == v[i + 1];
    }
  }

  /**
   * A verse number after text with no digit-period pair and no digit at its
   * end, and before a non-space, is where the verse split makes its first cut.
   */
  lemma VerseNumberSplit(a: string, n: string, b: string)
    requires NoDigitDot(a) && (|a| > 0 ==> !IsDigit(a[|a| - 1]))
    requires Digits(n)
    requires |b| > 0 ==> !IsJsSpace(b[0])
    ensures SplitVerses(a + n + ". " + b) == [a] + SplitVerses(b)
  {
    var s := a + n + ". " + b;
    FirstVerseNumber(a, n, b);
    SplitMatchesFirst(s, MatchVerseNumber, |a|);
    assert s[..|a|] == a;
    assert s[|a| + |n| + 2..] == b;
  }

  /** The first verse number of `a + n + ". " + b` is `n` with its period and space. */
  lemma FirstVerseNumber(a: string, n: string, b: string)
    requires NoDigitDot(a) && (|a| > 0 ==> !IsDigit(a[|a| - 1]))
    requires Digits(n)
    requires |b| > 0 ==> !IsJsSpace(b[0])
    ensures var s := a + n + ". " + b;
            FirstMatch(s, MatchVerseNumber, 0) == Some(|a|) && MatchVerseNumber(s[|a|..]) == Some(|n| + 2)
  {
    var s := a + n + ". " + b;
    NoVerseNumberInside(s, a);
    assert s[|a|..] == n + ". " + b;
    VerseNumberAtDigits(n, b);
  }

  /** No verse number starts inside a prefix with no digit-period pair and no digit at its end. */
  lemma NoVerseNumberInside(s: string, a: string)
    requires |a| <= |s| && s[..|a|] == a
    requires NoDigitDot(a) && (|a| > 0 ==> !IsDigit(a[|a| - 1]))
    ensures forall k | 0 <= k < |a| :: !MatchesAt(MatchVerseNumber, s[k..])
  {
    forall k | 0 <= k < |a|
      ensures !MatchesAt(MatchVerseNumber, s[k..])
    {
      VerseNumberShape(s, k);
      NoDigitRunToDot(s, a, k);
    }
  }

  /** A verse number at `k` is a run of digits from `k` up to a period. */
  lemma VerseNumberShape(s: string, k: nat)
    requires k < |s|
    ensures MatchesAt(MatchVerseNumber, s[k..]) ==>
              exists e | k < e < |s| :: s[e] == '.' && forall j | k <= j < e :: IsDigit(s[j])
  {
    var t := s[k..];
    var d := RunEnd(t, 0, IsDigit);
    if 0 < d < |t| {
      assert s[k + d] == t[d];
      assert forall j | k <= j < k + d :: s[j] == t[j - k];
    }
  }

  /** From inside `a`, every period is preceded by a non-digit at or after the start. */
  lemma NoDigitRunToDot(s: string, a: string, k: nat)
    requires k < |a| <= |s| && s[..|a|] == a
    requires NoDigitDot(a) && !IsDigit(a[|a| - 1])
    ensures forall e | k < e < |s| && s[e] == '.' :: exists j | k <= j < e :: !IsDigit(s[j])
  {
    forall e | k < e < |s| && s[e] == '.'
      ensures exists j | k <= j < e :: !IsDigit(s[j])
    {
      if e >= |a| {
        assert s[|a| - 1] == a[|a| - 1];
      } else {
        assert s[e - 1] == a[e - 1] && s[e] == a[e];
      }
    }
  }

  /** Digits, a period and one space before a non-space are one whole verse number. */
  lemma VerseNumberAtDigits(n: string, b: string)
    requires Digits(n) && (|b| > 0 ==> !IsJsSpace(b[0]))
    ensures MatchVerseNumber(n + ". " + b) == Some(|n| + 2)
  {
    var t := n + ". " + b;
    assert forall j | 0 <= j < |n| :: t[j] == n[j];
    assert t[|n|] == '.' && t[|n| + 1] == ' ';
    assert RunEnd(t, 0, IsDigit) == |n|;
    if |b| > 0 {
      assert t[|n| + 2] == b[0];
    }
  }

  /** A parenthesised reference after text with no `(` is dropped with the space before it. */
  lemma ReferenceDropped(body: string, ref: string)
    requires '(' !in body && |body| > 0 && !IsJsSpace(body[|body| - 1])
    requires forall k | 0 <= k < |ref| :: !IsLineTerminator(ref[k])
    ensures DropParenTail(body + " (" + ref + ")") == body
  {
    var f := body + " (" + ref + ")";
    var p := |body|;
    assert f[p] == ' ' && f[p + 1] == '(' && f[|f| - 1] == ')';
    assert RunEnd(f, p, IsJsSpace) == p + 1;
    assert TrailingSpaces(Js, f) == 0;
    assert forall k | p + 1 < k < |f| - 1 :: f[k] == ref[k - p - 2];
    assert ParenTailAt(f, p);
    forall k | 0 <= k < p
      ensures !ParenTailAt(f, k)
    {
      var q := RunEnd(f, k, IsJsSpace);
      assert f[p - 1] == body[p - 1];
      assert q < p;
      assert f[q] == body[q];
    }
    assert f[..p] == body;
  }
}

=== FILE: ts_server.dfy ===
/**
 * The TypeScript server's state (src/server.ts, class ServerApp): the last
 * text with its type and header, the upstream connection status, and the
 * reconnect timer. Its three entry points are modelled as atomic events: a
 * poll (`updateText`), a firing of the reconnect timer
 * (`attemptConnection` calling `attemptReconnect`), and a subscriber
 * connecting. Each returns what it emits.
 */
module TsServer {

  import opened Options
  import opened Text
  import opened Json
  import opened TsNormalizer

  /** The prefix of the error texts earlier versions stored as the last text (src/server.ts:184). */
  const ErrorPrefix: string := "Ошибка при получении текста"

  /** The message recorded for a thrown value that is not an Error (src/server.ts:310-312). */
  const UnknownError: string := "Неизвестная ошибка при получении текста"

  /**
   * The TypeError thrown at src/server.ts:281 when `type` is truthy but not
   * a string. Its wording belongs to the JavaScript engine; only its role
   * as the recorded error message is modelled.
   */
  const TypeErrorMessage: string := "toUpperCase is not a function"

  /** `connectionStatus` (src/server.ts:18-30); `errorTime` is a clock reading. */
  datatype Status = Status(
    connected: bool,
    lastError: Option<string>,
    errorTime: Option<int>,
    consecutiveErrors: nat,
    reconnecting: bool)

  datatype App = App(
    lastText: Option<string>,
    lastType: Option<string>,
    lastHeader: Option<Json>,
    status: Status,
    reconnectTimerActive: bool)

  /** The status label sent with `serverState`. */
  datatype Label = Connecting | Disconnected | Connected

  /** A text message's content: the raw text, or the verses of a scripture text. */
  datatype Content = Raw(text: string) | Verses(lines: seq<string>)

  datatype Emission =
    | TextMsg(kind: string, header: Option<Json>, content: Content)
    | StateMsg(statusLabel: Label, status: Status)

  /** A value thrown by a request: an Error with a message, or anything else. */
  datatype Thrown = ErrorObject(message: string) | OtherValue

  /**
   * The settled request for `/view/text.json`. A fulfilled request has a 2xx
   * status; `is200` tells 200 apart from the other 2xx codes.
   */
  datatype Response = Rejected(error: Thrown) | Fulfilled(is200: bool, body: Json)

  /**
   * src/server.ts:8-31, 74: the state after start-up. The last text is the
   * one read back from the cache (SQLite is not modelled), type and header
   * are unknown, the upstream is assumed connected.
   */
  function Boot(cached: Option<string>): (app: App)
    ensures app.status.connected && !app.status.reconnecting && !app.reconnectTimerActive
    ensures app.lastText == cached
    ensures app.lastType.None? && app.lastHeader.None?
    ensures app.status == Status(true, None, None, 0, false)
  {
    App(cached, None, None, Status(true, None, None, 0, false), false)
  }

  /**
   * What the status fields always agree on: a reconnection is only under
   * way while disconnected, a disconnection always has the reconnect timer
   * running and an error on record, and a connected status has no error
   * count or message.
   */
  predicate Consistent(app: App) {
    && (app.status.reconnecting ==> !app.status.connected)
    && (!app.status.connected ==> app.reconnectTimerActive)
    && (app.status.connected ==> app.status.consecutiveErrors == 0 && app.status.lastError.None?)
    && (!app.status.connected ==> app.status.consecutiveErrors >= 1 && app.status.lastError.Some?
                                  && app.status.errorTime.Some?)
  }

  /** src/server.ts:172-181: the label a status is reported under. */
  function LabelOf(s: Status): (l: Label)
    ensures l == Connected <==> s.connected
    ensures l == Connecting <==> !s.connected && s.reconnecting
  {
    if s.connected then Connected else if s.reconnecting then Connecting else Disconnected
  }

  function ErrorMessage(t: Thrown): (m: string)
    ensures t.ErrorObject? ==> m == t.message
    ensures t.OtherValue? ==> m == UnknownError
  {
    match t
    case ErrorObject(msg) => msg
    case OtherValue => UnknownError
  }

  /**
   * src/server.ts:306-329, 239-244: a failed poll. While connected it marks
   * the upstream lost with the message and time, counts one error,
   * announces the disconnection and starts the reconnect timer unless it
   * runs already; while disconnected it only counts one more error.
   */
  function Fail(app: App, msg: string, now: int): (r: (App, seq<Emission>))
    ensures !r.0.status.connected
    ensures app.status.connected ==>
              r.0.status == Status(false, Some(msg), Some(now), 1, app.status.reconnecting)
              && r.0.reconnectTimerActive
              && r.1 == [StateMsg(Disconnected, r.0.status)]
    ensures !app.status.connected ==>
              r.0 == app.(status := app.status.(consecutiveErrors := app.status.consecutiveErrors + 1)) && r.1 == []
    ensures r.0.lastText == app.lastText && r.0.lastType == app.lastType && r.0.lastHeader == app.lastHeader
  {
    if app.status.connected then
      var status := app.status.(connected := false, lastError := Some(msg), errorTime := Some(now), consecutiveErrors := 1);
      (app.(status := status, reconnectTimerActive := true), [StateMsg(Disconnected, status)])
    else
      (app.(status := app.status.(consecutiveErrors := app.status.consecutiveErrors + 1)), [])
  }

  /** `response.data?.map` when it is truthy and its `text` is a string: that object's members. */
  function TextMap(body: Json): (r: Option<map<string, Json>>)
    ensures r.Some? ==> "text" in r.value && r.value["text"].JStr?
    ensures r.Some? ==> Member(body, "map") == Some(JObj(r.value))
    ensures r.Some? <==> Member(body, "map").Some? && Member(body, "map").value.JObj?
                         && Member(Member(body, "map").value, "text").Some?
                         && Member(Member(body, "map").value, "text").value.JStr?
  {
    match Member(body, "map")
    case Some(JObj(m)) => if "text" in m && m["text"].JStr? then Some(m) else None
    case _ => None
  }

  /** src/server.ts:281: `(data.type || 'TEXT').toUpperCase()`, or None where it throws. */
  function TypeOf(m: map<string, Json>): (r: Option<string>)
    ensures r.Some? ==> r.value != ""
    ensures !Truthy(Member(JObj(m), "type")) ==> r == Some("TEXT")
    ensures Truthy(Member(JObj(m), "type")) && m["type"].JStr? ==> r == Some(ToUpper(m["type"].s))
    ensures r.None? <==> Truthy(Member(JObj(m), "type")) && !m["type"].JStr?
  {
    var t := Member(JObj(m), "type");
    if !Truthy(t) then Some("TEXT")
    else if t.value.JStr? then Some(ToUpper(t.value.s))
    else None
  }

  /** src/server.ts:282: `data.header || null`. */
  function HeaderOf(m: map<string, Json>): (r: Option<Json>)
    ensures r.Some? <==> Truthy(Member(JObj(m), "header"))
    ensures r.Some? ==> r == Member(JObj(m), "header")
  {
    var h := Member(JObj(m), "header");
    if Truthy(h) then h else None
  }

  /** src/server.ts:285-288, 188-190: scripture is sent as verses, anything else as the raw text. */
  function ContentFor(kind: string, text: string): (c: Content)
    ensures c.Verses? <==> kind == "BIBLE"
    ensures c.Raw? ==> c.text == text
    ensures c.Verses? ==> c.lines == ProcessBibleText(text)
  {
    if kind == "BIBLE" then Verses(ProcessBibleText(text)) else Raw(text)
  }

  /** src/server.ts:296-305: a poll that did not throw reconnects a disconnected status. */
  function Reconnected(app: App): (r: (App, seq<Emission>))
    ensures r.0.status.connected
    ensures app.status.connected ==> r == (app, [])
    ensures !app.status.connected ==>
              r.0.status == app.status.(connected := true, consecutiveErrors := 0, lastError := None)
              && r.1 == [StateMsg(Connected, r.0.status)]
    ensures r.0.status.reconnecting == app.status.reconnecting
    ensures r.0.reconnectTimerActive == app.reconnectTimerActive && r.0.status.errorTime == app.status.errorTime
    ensures r.0.lastText == app.lastText && r.0.lastType == app.lastType && r.0.lastHeader == app.lastHeader
  {
    if app.status.connected then (app, [])
    else
      var status := app.status.(connected := true, consecutiveErrors := 0, lastError := None);
      (app.(status := status), [StateMsg(Connected, status)])
  }

  /**
   * The outcome of a new text with a usable type (src/server.ts:279-305):
   * the cleaned text, the type and the header are stored, the text is sent
   * first, then a reconnection notice when the status was disconnected, and
   * the status ends connected. A reconnection changes only `connected`, the
   * error count and the last error; the timer and the error time are kept.
   */
  ghost predicate StoredAndSent(app: App, m: map<string, Json>, r: (App, seq<Emission>))
    requires "text" in m && m["text"].JStr? && TypeOf(m).Some?
  {
    var cleaned := RemoveHiddenSpan(m["text"].s);
    var kind := TypeOf(m).value;
    var status := if app.status.connected then app.status
                  else app.status.(connected := true, consecutiveErrors := 0, lastError := None);
    r.0.lastText == Some(cleaned) && r.0.lastType == Some(kind) && r.0.lastHeader == HeaderOf(m)
    && r.0.status.connected
    && r.0 == app.(status := status, lastText := Some(cleaned), lastType := Some(kind), lastHeader := HeaderOf(m))
    && r.1 == [TextMsg(kind, HeaderOf(m), ContentFor(kind, cleaned))]
              + (if app.status.connected then [] else [StateMsg(Connected, r.0.status)])
  }

  /**
   * src/server.ts:266-331: `updateText`. Nothing happens while a
   * reconnection is under way. A rejected request is a failure. A reply
   * whose `map.text` is a string is cleaned of the hidden span and, when it
   * differs from the last text, stored with its upper-cased type (default
   * "TEXT") and header and emitted; a truthy non-string type throws after
   * the text is stored, which is a failure too. Any reply that did not
   * throw reconnects a disconnected status.
   */
  function UpdateText(app: App, resp: Response, now: int): (r: (App, seq<Emission>))
    ensures app.status.reconnecting ==> r == (app, [])
    ensures !app.status.reconnecting && resp.Rejected? ==> r == Fail(app, ErrorMessage(resp.error), now)
    ensures !app.status.reconnecting && resp.Fulfilled? && TextMap(resp.body).Some?
            && app.lastText == Some(RemoveHiddenSpan(TextMap(resp.body).value["text"].s)) ==>
              r == Reconnected(app)
    ensures !app.status.reconnecting && resp.Fulfilled? && TextMap(resp.body).None? ==> r == Reconnected(app)
    ensures forall i | 0 <= i < |r.1| && r.1[i].TextMsg? ::
              resp.Fulfilled? && TextMap(resp.body).Some?
              && r.0.lastText == Some(RemoveHiddenSpan(TextMap(resp.body).value["text"].s))
              && r.0.lastText != app.lastText && r.0.lastType.Some?
              && r.1[i] == TextMsg(r.0.lastType.value, r.0.lastHeader, ContentFor(r.0.lastType.value, r.0.lastText.value))
    ensures !app.status.reconnecting && resp.Fulfilled? && TextMap(resp.body).Some?
            && app.lastText != Some(RemoveHiddenSpan(TextMap(resp.body).value["text"].s))
            && TypeOf(TextMap(resp.body).value).Some? ==>
              StoredAndSent(app, TextMap(resp.body).value, r)
    ensures !app.status.reconnecting && resp.Fulfilled? && TextMap(resp.body).Some?
            && app.lastText != Some(RemoveHiddenSpan(TextMap(resp.body).value["text"].s))
            && TypeOf(TextMap(resp.body).value).None? ==>
              r == Fail(app.(lastText := Some(RemoveHiddenSpan(TextMap(resp.body).value["text"].s))), TypeErrorMessage, now)
  {
    if app.status.reconnecting then (app, [])
    else
      match resp
      case Rejected(err) => Fail(app, ErrorMessage(err), now)
      case Fulfilled(_, body) =>
        match TextMap(body)
        case None => Reconnected(app)
        case Some(m) =>
          var cleaned := RemoveHiddenSpan(m["text"].s);
          if app.lastText == Some(cleaned) then Reconnected(app)
          else
            match TypeOf(m)
            case None => Fail(app.(lastText := Some(cleaned)), TypeErrorMessage, now)
            case Some(kind) =>
              var stored := app.(lastText := Some(cleaned), lastType := Some(kind), lastHeader := HeaderOf(m));
              var (after, notices) := Reconnected(stored);
              (after, [TextMsg(kind, HeaderOf(m), ContentFor(kind, cleaned))] + notices)
  }

  /**
   * src/server.ts:246-258, 204-237: the reconnect timer fires. If the
   * upstream is back it just stops. Otherwise a first attempt marks the
   * reconnection under way and announces it; a 200 restores the connection
   * and stops the timer, another 2xx leaves everything as it is, and a
   * rejection announces another attempt. A failed attempt does not count
   * an error.
   */
  function AttemptConnection(app: App, resp: Response): (r: Option<(App, seq<Emission>)>)
    ensures r.Some? <==> app.reconnectTimerActive
    ensures r.Some? && app.status.connected ==> r.value == (app.(reconnectTimerActive := false), [])
    ensures r.Some? && !app.status.connected && resp.Fulfilled? && resp.is200 ==>
              r.value.0.status.connected && !r.value.0.status.reconnecting && !r.value.0.reconnectTimerActive
              && r.value.0.status.consecutiveErrors == 0 && r.value.0.status.lastError.None?
              && |r.value.1| > 0 && r.value.1[|r.value.1| - 1] == StateMsg(Connected, r.value.0.status)
    ensures r.Some? && !app.status.connected && resp.Fulfilled? && resp.is200 ==>
              var attempting := app.status.(reconnecting := true);
              var back := attempting.(connected := true, reconnecting := false, consecutiveErrors := 0, lastError := None);
              r.value == (app.(status := back, reconnectTimerActive := false),
                          (if app.status.reconnecting then [] else [StateMsg(Connecting, attempting)])
                          + [StateMsg(Connected, back)])
    ensures r.Some? && !app.status.connected && !(resp.Fulfilled? && resp.is200) ==>
              r.value.0 == app.(status := app.status.(reconnecting := true))
    ensures r.Some? && !app.status.connected && !app.status.reconnecting ==>
              |r.value.1| > 0 && r.value.1[0].StateMsg? && r.value.1[0].statusLabel == Connecting
    ensures r.Some? && !app.status.connected && resp.Rejected? ==>
              r.value.1 == (if app.status.reconnecting then [] else [StateMsg(Connecting, r.value.0.status)])
                           + [StateMsg(Connecting, r.value.0.status)]
    ensures r.Some? && !app.status.connected && resp.Fulfilled? && !resp.is200 ==>
              r.value.1 == (if app.status.reconnecting then [] else [StateMsg(Connecting, r.value.0.status)])
    ensures r.Some? ==> r.value.0.lastText == app.lastText && r.value.0.lastType == app.lastType
                        && r.value.0.lastHeader == app.lastHeader
  {
    if !app.reconnectTimerActive then None
    else if app.status.connected then Some((app.(reconnectTimerActive := false), []))
    else
      var status := app.status.(reconnecting := true);
      var started := if app.status.reconnecting then [] else [StateMsg(Connecting, status)];
      match resp
      case Fulfilled(true, _) =>
        var back := status.(connected := true, reconnecting := false, consecutiveErrors := 0, lastError := None);
        Some((app.(status := back, reconnectTimerActive := false), started + [StateMsg(Connected, back)]))
      case Fulfilled(false, _) => Some((app.(status := status), started))
      case Rejected(_) => Some((app.(status := status), started + [StateMsg(Connecting, status)]))
  }

  /**
   * src/server.ts:168-195: a subscriber connects. It is sent the status at
   * once and, unless the last text is missing, empty or a stored error
   * message, that text with its type (default "TEXT") and header, as verses
   * for scripture.
   */
  function OnConnection(app: App): (out: seq<Emission>)
    ensures |out| >= 1 && out[0] == StateMsg(LabelOf(app.status), app.status)
    ensures |out| == 2 <==> app.lastText.Some? && app.lastText.value != "" && !OccursAt(app.lastText.value, ErrorPrefix, 0)
    ensures |out| <= 2
    ensures |out| == 2 ==> out[1].TextMsg? && out[1].header == app.lastHeader
                           && (out[1].content.Verses? <==> out[1].kind == "BIBLE")
                           && (out[1].content.Raw? ==> out[1].content.text == app.lastText.value)
    ensures |out| == 2 ==> out[1].TextMsg?
                           && out[1].kind == (if app.lastType.Some? && app.lastType.value != "" then app.lastType.value else "TEXT")
                           && out[1].content == ContentFor(out[1].kind, app.lastText.value)
  {
    var state := StateMsg(LabelOf(app.status), app.status);
    match app.lastText
    case Some(t) =>
      if t != "" && !OccursAt(t, ErrorPrefix, 0) then
        var kind := if app.lastType.Some? && app.lastType.value != "" then app.lastType.value else "TEXT";
        [state, TextMsg(kind, app.lastHeader, ContentFor(kind, t))]
      else [state]
    case None => [state]
  }

  datatype Event =
    | Poll(resp: Response, now: int)
    | TimerFires(resp: Response)
    | Subscribe

  /** One event; a timer firing when no timer is set is disabled. Every event keeps the status consistent. */
  function Step(app: App, e: Event): (r: Option<(App, seq<Emission>)>)
    ensures Consistent(app) && r.Some? ==> Consistent(r.value.0)
    ensures e.Subscribe? ==> r == Some((app, OnConnection(app)))
  {
    match e
    case Poll(resp, now) => Some(UpdateText(app, resp, now))
    case TimerFires(resp) => AttemptConnection(app, resp)
    case Subscribe => Some((app, OnConnection(app)))
  }

  /** The state after a run of events, disabled ones skipped. */
  function Run(app: App, events: seq<Event>): App
    decreases |events|
  {
    if |events| == 0 then app
    else
      var next := match Step(app, events[0]) case Some(o) => o.0 case None => app;
      Run(next, events[1..])
  }

  /** Every state reachable from start-up is consistent. */
  lemma {:induction false} RunKeepsConsistent(app: App, events: seq<Event>)
    requires Consistent(app)
    ensures Consistent(Run(app, events))
    decreases |events|
  {
    if |events| > 0 {
      var next := match Step(app, events[0]) case Some(o) => o.0 case None => app;
      RunKeepsConsistent(next, events[1..]);
    }
  }

  /**
   * The same reply polled twice sends its text once: the first poll stores
   * it (or finds it stored), so the second changes nothing and sends nothing.
   */
  lemma SamePollTwiceSendsOnce(app: App, is200: bool, body: Json, now: int, later: int)
    requires !app.status.reconnecting && TextMap(body).Some? && TypeOf(TextMap(body).value).Some?
    ensures var (next, _) := UpdateText(app, Fulfilled(is200, body), now);
            UpdateText(next, Fulfilled(is200, body), later) == (next, [])
  {
  }

  lemma BootIsConsistent(cached: Option<string>)
    ensures Consistent(Boot(cached))
  {
  }

  /**
   * While a reconnection is under way the error count stays where it was at
   * the disconnection: polls are skipped and failed attempts do not count.
   */
  lemma ErrorCountFrozenWhileReconnecting(app: App, e: Event)
    requires app.status.reconnecting && Step(app, e).Some?
    requires Step(app, e).value.0.status.reconnecting
    ensures Step(app, e).value.0.status.consecutiveErrors == app.status.consecutiveErrors
  {
  }

  /**
   * A poll that reads a new text with a readable type emits a text message,
   * and a subscriber connecting right after it receives exactly that message
   * again, as long as the text is non-empty and does not look like a stored
   * error message.
   */
  lemma ReplayRepeatsLastText(app: App, is200: bool, body: Json, now: int)
    requires !app.status.reconnecting && TextMap(body).Some?
    requires TypeOf(TextMap(body).value).Some?
    requires var t := RemoveHiddenSpan(TextMap(body).value["text"].s);
             app.lastText != Some(t) && t != "" && !OccursAt(t, ErrorPrefix, 0)
    ensures var (next, out) := UpdateText(app, Fulfilled(is200, body), now);
            |out| > 0 && out[0].TextMsg? && OnConnection(next)[1] == out[0]
  {
    var (next, out) := UpdateText(app, Fulfilled(is200, body), now);
    assert next.lastType.Some? && next.lastType.value != "";
  }

  /** A text whose type is not a string is stored but never emitted, and counts as a failed poll. */
  lemma NonStringTypeIsFailure(app: App, body: Json, now: int)
    requires !app.status.reconnecting && app.status.connected
    requires TextMap(body).Some? && app.lastText != Some(RemoveHiddenSpan(TextMap(body).value["text"].s))
    requires TypeOf(TextMap(body).value).None?
    ensures var (next, out) := UpdateText(app, Fulfilled(true, body), now);
            && next.lastText == Some(RemoveHiddenSpan(TextMap(body).value["text"].s))
            && !next.status.connected && next.status.lastError == Some(TypeErrorMessage)
            && out == [StateMsg(Disconnected, next.status)]
  {
  }
}
